=== FILE: README.md ===
# Grid-occupancy placement of the level generator

`GenerateEnvironment` builds one level of a grid-based dungeon game. Awake
draws the level size `gridSize` in `[minGridSize, maxGridSize]` and puts the
player on the centre tile `(gridSize/2, gridSize/2)`. Start then:

1. runs a capacity check;
2. lays an n-by-n floor of tiles, with the player's tile marked occupied;
3. places the exits on random free corners;
4. places rocks on random free tiles, `gridSize² · percent / 100` of them;
5. places food the same way;
6. places enemies on random free tiles at least `closestSpawnDistanceFromPlayer`
   away from the player.

Exits, rocks and food mark their tile occupied; enemies do not. Every
placement is a rejection-sampling loop: draw a position, and draw again while
it is unacceptable.

The model keeps the part of this that decides where things go: the tile
dictionary reduced to its occupied flags, and the arithmetic.

- `Occupancy`: positions, the grid as a `map<Pos, bool>` (occupied or not),
  the level's square of coordinates, the four corners, the player's tile.
- `Capacity`: the capacity check as written, with C#'s truncating integer
  division, and the per-pass object count. It also holds the check the
  authors evidently meant (see Findings).
- `FloorBuild`: GenerateFloor, InstantiateFloorTile and SetPlayerTileOccupied,
  as a loop method proved equal to a declarative floor.
- `Draws`: Unity's `Random.Range`, GetRandomGridPosition and GetRandomCorner.
  Randomness is a sequence of raw draws per step. It is read off as the
  sequence of candidate tiles the generator would propose.
- `Sampling`: one rejection-sampling loop. It takes the first acceptable
  candidate of a finite supply, or reports that the supply ran out.
- `Placement`: one pass (SpawnExits, one GenerateObjects call, SpawnEnemies)
  as `count` loops in a row, each on the grid the previous loop left.
- `PlacementFacts`: what a pass guarantees:
  - where objects land;
  - how the occupied set grows;
  - that nothing else changes;
  - exactly when a pass can finish for some draws, and when it must stall for
    all of them.
- `Generation`: Awake and Start end to end, with the level-wide guarantees.
  It also holds the two findings, shown on concrete levels, and the checks
  that correct them.

A run that never ends in the program appears here as a pass that stalls
(`Stall(category, unplaced)`) for every finite supply of draws. A run that
ends appears as a pass that succeeds for some supply.

The capacity check only reports. A failed check asks the editor or the
application to quit; Start goes on to build and populate the level in the same
call. So the model records the verdict in `Level.capacityOk` and carries on.

## Model

| member | source | states |
|---|---|---|
| Capacity.TruncDiv | Assets/Scripts/GenerateEnvironment.cs:63 | C# integer division: the quotient is truncated toward zero, bracketed by the dividend for either sign |
| Capacity.CapacityCheck | Assets/Scripts/GenerateEnvironment.cs:61-63 | for any combined density of rocks and food below 100 the check accepts exactly when enemies + exits is below `gridSize²`: rocks and food are not counted at all |
| Capacity.CapacityMultiplier | Assets/Scripts/GenerateEnvironment.cs:61-63 | the check accepts exactly when `gridSize²` is at least enemies + exits + 1 for combined density below 100 (rocks and food are ignored); from 100 to 199 only when enemies + exits + 1 <= 0; at 200 only when it is at most `-gridSize²` |
| Capacity.SpawnCount | Assets/Scripts/GenerateEnvironment.cs:106 | the number of rocks or food is the percentage of the `gridSize²` tiles rounded down (k·100 <= n²·p < k·100 + 100), never more than all tiles |
| Capacity.IntendedCheckLeavesRoom | Assets/Scripts/GenerateEnvironment.cs:61-65 | under the corrected check the player, the exits, both density passes and the enemies together need at most `gridSize²` tiles |
| Capacity.CapacityCheckAdmitsOverfullLevel | Assets/Scripts/GenerateEnvironment.cs:61-63 | the check as written accepts n = 5, rocks 50%, food 49%, one exit, no enemies, although those occupants need 26 of 25 tiles; the corrected check rejects it |
| Occupancy.SquareSize | Assets/Scripts/GenerateEnvironment.cs:76-82 | an n-by-n level has exactly n² coordinates |
| Occupancy.Corner | Assets/Scripts/GenerateEnvironment.cs:160-176 | the corner table in GetRandomCorner's order: indices 0 and 1 are in column 0, 2 and 3 in column `gridSize - 1`; even indices are in row 0, odd ones in row `gridSize - 1` |
| Occupancy.Origin | Assets/Scripts/GenerateEnvironment.cs:44-45 | the player starts on the diagonal at the centre rounded down: `2x` is `gridSize` or `gridSize - 1` |
| Occupancy.Occupy | Assets/Scripts/GenerateEnvironment.cs:118 | setting `Occupied` keeps the grid's tiles, makes the chosen tile occupied and leaves every other tile's flag as it was |
| Occupancy.CornersOfLevel | Assets/Scripts/GenerateEnvironment.cs:160-176 | on a level at least 2 wide the corner table holds four different tiles of the level, and each table index names one of them |
| Occupancy.OriginPlacement | Assets/Scripts/GenerateEnvironment.cs:44-45 | the player's tile `(n/2, n/2)` is on the level, and on a level at least 3 wide it is no corner |
| Occupancy.OccupyAdds | Assets/Scripts/GenerateEnvironment.cs:118 | marking a free tile adds exactly that tile to the occupied set, growing it by one |
| FloorBuild.BuildFloor | Assets/Scripts/GenerateEnvironment.cs:74-101 | the nested loops add each coordinate of the level once (Dictionary.Add never meets a key twice) and then mark the player's tile; the result is the declarative floor |
| FloorBuild.AddColumn | Assets/Scripts/GenerateEnvironment.cs:78-82 | the inner loop adds the free tiles of column x, each new, extending the filled columns by one |
| FloorBuild.FloorShape | Assets/Scripts/GenerateEnvironment.cs:74-101 | the floor has exactly the n² coordinates of the level as keys, and the player's tile is the only occupied one |
| Draws.RandomRange | Assets/Scripts/GenerateEnvironment.cs:155-156 | `Random.Range(lo, hi)` lies in `[lo, hi)`, and each value of the range comes from some draw |
| Draws.Candidate | Assets/Scripts/GenerateEnvironment.cs:153-176 | a proposed position is on the level, and a proposed exit position is a corner, so every grid lookup finds a tile |
| Draws.Candidates | Assets/Scripts/GenerateEnvironment.cs:110-113 | a supply of draws yields one candidate per draw chunk (one draw for a corner, two for x then y), each in its category's pool |
| Draws.CandidatesStep | Assets/Scripts/GenerateEnvironment.cs:153-158 | the first chunk of draws is the first candidate, and the rest of the draws give the rest |
| Draws.DrawsFor | Assets/Scripts/GenerateEnvironment.cs:153-176 | every sequence of tiles from a category's pool is proposed by some draws |
| Draws.CandidatesOnto | Assets/Scripts/GenerateEnvironment.cs:153-176 | the draws reach every sequence of proposals the generator can make |
| Sampling.TooClose | Assets/Scripts/GenerateEnvironment.cs:143 | the distance test: nothing is too close for a spawn distance of 0 or less; the player's own tile is too close for any positive one; a too-close tile is fewer than `d` columns and rows away, and on the player's row or column that is exactly the test |
| Sampling.TooCloseIsDistance | Assets/Scripts/GenerateEnvironment.cs:143 | against an independent reading of `Vector2.Distance(player, p) < d`: the square-free test holds exactly when the whole part of the Euclidean distance (FloorSqrt of dx² + dy²) is below `d`, which for a whole-numbered `d` is the same as the distance itself being below it |
| Sampling.FloorSqrt | Assets/Scripts/GenerateEnvironment.cs:143 | the reference for the distance: the whole part of √s, the one `r` with r² <= s < (r+1)² |
| Sampling.Acceptable | Assets/Scripts/GenerateEnvironment.cs:110-145 | the negation of the loop guards: a candidate ends its loop exactly when its tile exists and is free and, for an enemy, the whole part of its Euclidean distance from the player is at least the spawn distance |
| Sampling.Sample | Assets/Scripts/GenerateEnvironment.cs:110-114 | a loop ends on an acceptable candidate of the supply (free, and for an enemy not too close), and leaves fewer candidates than it was given |
| Sampling.SampleLeavesSuffix | Assets/Scripts/GenerateEnvironment.cs:110-114 | the candidates left after a loop are a suffix of the supply: the next loop draws on from where this one stopped |
| Sampling.SampleSucceedsIff | Assets/Scripts/GenerateEnvironment.cs:126-130 | a loop ends within the supply if and only if the supply holds an acceptable candidate |
| Sampling.SampleIsFirstAcceptable | Assets/Scripts/GenerateEnvironment.cs:141-147 | the loop takes the first acceptable candidate: every earlier one was rejected, and sampling resumes right after it |
| Sampling.SampleTakesFirst | Assets/Scripts/GenerateEnvironment.cs:110-114 | an acceptable first proposal is taken at once, without further draws |
| Placement.Land | Assets/Scripts/GenerateEnvironment.cs:118-149 | placing an object flips only its tile: exits (line 133), rocks and food (line 118), the categories `Marks` picks out, set it occupied; enemies, whose loop has no such line, leave the grid unchanged; every other tile keeps its flag |
| Placement.LandAdds | Assets/Scripts/GenerateEnvironment.cs:133 | a marking placement adds its tile, previously free, to the occupied set |
| Placement.PlaceMany | Assets/Scripts/GenerateEnvironment.cs:104-151 | a successful pass places `count` objects, each on a tile acceptable in the grid the pass started from; an enemy pass leaves the grid unchanged; a stalled pass reports its category and between 1 and `count` unplaced objects (the exact number is PlacementFacts.StallCountsUnplaced) |
| Placement.PlaceManyStep | Assets/Scripts/GenerateEnvironment.cs:108-119 | a successful pass is one loop followed by the rest of the pass on the updated grid |
| Placement.PlaceManyCons | Assets/Scripts/GenerateEnvironment.cs:108-119 | a supply starting with an acceptable tile places the first object there and runs the rest of the pass after it |
| PlacementFacts.PlacementFromSupply | Assets/Scripts/GenerateEnvironment.cs:110-113 | every tile a pass places on was one of the proposed candidates |
| PlacementFacts.PlacementOccupies | Assets/Scripts/GenerateEnvironment.cs:108-119 | after exits, rocks or food the occupied set is the old one plus the placed tiles, and it grew by exactly `count` |
| PlacementFacts.PlacementDistinct | Assets/Scripts/GenerateEnvironment.cs:122-135 | no two exits, rocks or food of one pass share a tile |
| PlacementFacts.PlacementFrame | Assets/Scripts/GenerateEnvironment.cs:111-118 | a pass changes no flag except those of the tiles it placed on |
| PlacementFacts.PlaceManyCounts | Assets/Scripts/GenerateEnvironment.cs:108-119 | a pass finishes if and only if its loops place all `count` objects before the first loop that finds nothing acceptable; a stalled pass reports exactly the objects left after those placed. `PlacedBeforeStall` follows the pass's own recursion, so this is a step toward StallCountsUnplaced rather than a separate fact about the program |
| PlacementFacts.PlacedPrefix | Assets/Scripts/GenerateEnvironment.cs:108 | a pass of j loops places min(j, k) objects, k being what the longer pass placed before its first stall; a step toward StallCountsUnplaced, not a separate fact about the program |
| PlacementFacts.SpotsPrefix | Assets/Scripts/GenerateEnvironment.cs:108-119 | when a pass of `count` loops finishes, a pass of j <= count loops on the same grid and draws finishes too and places its objects on exactly the first j tiles of the longer pass, in order |
| PlacementFacts.StallCountsUnplaced | Assets/Scripts/GenerateEnvironment.cs:104-151 | a stall's `unplaced` is the number still to place: the same pass asked for that many fewer objects finishes, and asked for one more than that stalls with one object unplaced |
| PlacementFacts.PlacementNeedsRoom | Assets/Scripts/GenerateEnvironment.cs:104-120 | a marking pass asking for more objects than it has free tiles in its pool stalls for every supply of draws |
| PlacementFacts.ExitsBeyondCornersStall | Assets/Scripts/GenerateEnvironment.cs:122-135 | a fifth exit never fits: the exit pass stalls whatever the draws |
| PlacementFacts.PlacesFreeTilesInOrder | Assets/Scripts/GenerateEnvironment.cs:108-119 | a marking pass fed pairwise different free tiles places its objects on exactly those tiles, in order |
| PlacementFacts.FillingCandidates | Assets/Scripts/GenerateEnvironment.cs:104-120 | when the pool has a free tile per object, some candidates from the pool let the pass finish |
| PlacementFacts.PlacementCanFinishIff | Assets/Scripts/GenerateEnvironment.cs:104-135 | a marking pass can finish for some draws if and only if its pool has at least one free tile per object |
| PlacementFacts.EnemiesShareTile | Assets/Scripts/GenerateEnvironment.cs:137-151 | because enemies do not mark their tile, any number of them can all land on one acceptable tile, leaving the grid unchanged |
| PlacementFacts.EnemiesMayShareTile | Assets/Scripts/GenerateEnvironment.cs:137-151 | one acceptable tile on the level is enough for some draws to place every enemy, all on that tile |
| Generation.GridSize | Assets/Scripts/GenerateEnvironment.cs:44 | the drawn size lies in `[minGridSize, maxGridSize]`, both bounds included |
| Generation.ValidConfig | Assets/Scripts/GenerateEnvironment.cs:12-27 | the inspector's Range attributes on the sizes, percentages and exit count, plus a non-empty size range (see Left out); a valid configuration leaves room on the smallest level for the player and every exit |
| Generation.GridSizeReachable | Assets/Scripts/GenerateEnvironment.cs:44 | every size of the configured range is drawn by some draw |
| Generation.Populate | Assets/Scripts/GenerateEnvironment.cs:50-54 | after the floor, exit, rock and food passes the grid still has exactly the level's tiles, with the configured number of exits and the computed numbers of rocks and food; a stall comes from one of these passes |
| Generation.Generate | Assets/Scripts/GenerateEnvironment.cs:41-56 | a finished run has a size in range, a grid with exactly that level's tiles, the configured number of exits and one enemy per loop iteration |
| Generation.PopulateParts | Assets/Scripts/GenerateEnvironment.cs:51-54 | a successful Populate is three successful passes, each on the grid the previous one left |
| Generation.ThreePassesOccupy | Assets/Scripts/GenerateEnvironment.cs:52-54 | exits, rocks and food in a row add their tiles, one per object, to the occupied set |
| Generation.PopulateOccupancy | Assets/Scripts/GenerateEnvironment.cs:51-54 | afterwards exactly the player's tile and the tiles of exits, rocks and food are occupied, and there are 1 + exits + rocks + food of them |
| Generation.PopulateSeparates | Assets/Scripts/GenerateEnvironment.cs:52-54 | no two of the exits, rocks and food share a tile, and none stands on the player's tile |
| Generation.PopulateExitsAtCorners | Assets/Scripts/GenerateEnvironment.cs:122-135 | every exit stands on a corner of the level |
| Generation.FreeTiles | Assets/Scripts/GenerateEnvironment.cs:76-82 | the free tiles of a floor-shaped grid number n² less the occupied ones |
| Generation.PopulateNeedsRoom | Assets/Scripts/GenerateEnvironment.cs:52-54 | when the player, exits, rocks and food outnumber the tiles, a pass stalls for every supply of draws |
| Generation.NextPass | Assets/Scripts/GenerateEnvironment.cs:104-135 | with a free pool tile per object, some draws finish a marking pass, and the occupied set grows by the count |
| Generation.PopulateOfParts | Assets/Scripts/GenerateEnvironment.cs:51-54 | three successful passes in a row make Populate succeed with their placements |
| Generation.ExitPass | Assets/Scripts/GenerateEnvironment.cs:122-135 | on the floor of a level at least 3 wide, up to four exits can always be placed |
| Generation.DensityPass | Assets/Scripts/GenerateEnvironment.cs:104-120 | a rock or food pass can finish whenever the free tiles number at least its count |
| Generation.PopulateCanFinish | Assets/Scripts/GenerateEnvironment.cs:51-54 | when the player, exits, rocks and food fit one per tile, some draws let all three marking passes finish |
| Generation.PopulateCanFinishIff | Assets/Scripts/GenerateEnvironment.cs:51-54 | the marking passes can finish for some draws if and only if 1 + exits + rocks + food <= `gridSize²` |
| Generation.GenerateParts | Assets/Scripts/GenerateEnvironment.cs:48-56 | a successful run is a successful Populate and enemy pass, and the level records the capacity verdict for the drawn size |
| Generation.GenerateLayout | Assets/Scripts/GenerateEnvironment.cs:48-56 | on a finished level the occupied tiles are the player's and those of exits, rocks and food, all pairwise different; exits are on corners; the counts are the computed ones; the capacity verdict is the check's |
| Generation.GenerateEnemies | Assets/Scripts/GenerateEnvironment.cs:137-151 | every enemy stands on a tile of the level that nothing else occupies, not closer to the player than the spawn distance |
| Generation.OverfullLevelNeverFinishes | Assets/Scripts/GenerateEnvironment.cs:61-63 | the level the check wrongly accepts (5 by 5, 50% rocks, 49% food, one exit) never finishes: a pass stalls whatever the draws |
| Generation.IntendedCheckLetsPopulateFinish | Assets/Scripts/GenerateEnvironment.cs:61-63 | under the corrected capacity check the exit, rock and food passes can finish for every size draw |
| Generation.FarTileLeftFree | Assets/Scripts/GenerateEnvironment.cs:143-144 | with more far tiles than non-player occupants, some far tile is still free |
| Generation.EnemyDraws | Assets/Scripts/GenerateEnvironment.cs:137-151 | with one acceptable tile, or no enemies, some draws finish the enemy pass |
| Generation.GenerateOfParts | Assets/Scripts/GenerateEnvironment.cs:48-56 | a successful Populate followed by a successful enemy pass makes the run succeed |
| Generation.SpawnCheckLetsGenerateFinish | Assets/Scripts/GenerateEnvironment.cs:137-151 | under the distance-aware check, for every size draw some draws place every exit, rock, food and enemy |
| Generation.SmallLevelIsNear | Assets/Scripts/GenerateEnvironment.cs:143 | on a 5-by-5 level every tile is closer than 10 to the player |
| Generation.SpawnDistanceBlocksEnemies | Assets/Scripts/GenerateEnvironment.cs:137-151 | a level that both capacity checks accept (5 by 5, one exit, one enemy, spawn distance 10) never finishes, and the distance-aware check rejects it |

## Left out

- Unity objects are not modelled. This covers `Instantiate`, prefabs, `SpriteRenderer`, `FindObjectOfType`, transforms and the `GroundTile` component. A tile is reduced to its `Occupied` flag, and a placed object to its position.
- The sprite draws (lines 92 and 117) are not modelled. They take numbers from the same global generator between position draws. The model gives each step its own sequence of raw draws. These sequences are arbitrary, so which numbers the sprites took does not matter.
- The concrete `UnityEngine.Random` generator is not modelled. `Random.Range(lo, hi)` is `lo + draw % (hi - lo)` for an arbitrary integer draw, so it reaches every value of the range.
- The rejection loops run without bound in the program. Here they read a finite supply, and running out is a `Stall`. A level that can never be finished shows up as a stall for every supply.
- The diagnostic print and the quit request (lines 64-71) are left out. This is host-process control, and it does not stop Start. Only the verdict is kept, in `Level.capacityOk`.
- Float semantics are not modelled, and nothing here needs them:
  - `Mathf.Pow(gridSize, 2)` is at most 10⁶, which a float holds exactly.
  - Every position has whole coordinates and the spawn distance is an `int`, so `Vector2.Distance(o, p) < d` is exactly `d > 0 && dx² + dy² < d²`.
- 32-bit overflow is not modelled. With the inspector's ranges, `gridSize² · percent` is at most 10⁸, far below `int.MaxValue`. `amountOfEnemies + amountOfExits + 1` could only wrap near `int.MaxValue` enemies.
- Configurations outside the inspector's ranges are not modelled (`ValidConfig`). This includes `minGridSize > maxGridSize`, whose `Random.Range` behaviour depends on the engine.
- The player's position is assumed not to change between Awake and Start. SetPlayerTileOccupied and SpawnEnemies read it back from the transform Awake set.
- Generation.SpawnCheckLetsGenerateFinish: shows the distance-aware check is sufficient for a run to finish, not that it is necessary. Exactly which levels can finish with enemies depends on which far tiles the exits can take.

## Findings

| source | as written | input that shows it | evidently intended | confidence | as-written member | corrected member |
|---|---|---|---|---|---|---|
| Assets/Scripts/GenerateEnvironment.cs:61-63 | `1 - percentOccupied / 100` uses integer division, so every combined density below 100 gives multiplier 1 and the check ignores rocks and food | `gridSize` 5, rocks 50%, food 49%, 1 exit, 0 enemies: the check accepts; the player, the exit, 12 rocks and 12 food need 26 of 25 tiles, so the food loop never ends | accept only when the tiles left by rocks and food hold the player, exits and enemies: `gridSize² · (100 - rocks - food) >= 100 · (enemies + exits + 1)` | high; not executed | Generation.OverfullLevelNeverFinishes | Generation.IntendedCheckLetsPopulateFinish |
| Assets/Scripts/GenerateEnvironment.cs:137-151 | the capacity check never looks at `closestSpawnDistanceFromPlayer`, so an enemy may have no tile far enough from the player | `gridSize` 5, no rocks or food, 1 exit, 1 enemy, spawn distance 10: both capacity checks accept, every tile is within √8 of the player, and the enemy loop never ends | also require, when there are enemies, more tiles at least the spawn distance away (besides the player's) than exits, rocks and food together | medium; not executed | Generation.SpawnDistanceBlocksEnemies | Generation.SpawnCheckLetsGenerateFinish |

=== FILE: capacity.dfy ===
/**
 The level generator's integer arithmetic: the pre-flight capacity check of
 CheckForValidGrid and the per-pass object count of GenerateObjects. The two
 use different formulas and both are kept as written.
 */
module Capacity {

  /** C#'s integer division: the quotient is truncated toward zero. */
  function TruncDiv(a: int, b: int): (q: int)
    requires b > 0
    ensures a >= 0 ==> q * b <= a < q * b + b
    ensures a < 0 ==> q * b - b < a <= q * b
  {
    if a >= 0 then a / b else -((-a) / b)
  }

  /** The non-negative part of an integer: how often `for (i = 0; i < k; i++)` runs. */
  function Max0(k: int): nat
  {
    if k < 0 then 0 else k
  }

  /**
   CheckForValidGrid as written: the grid is accepted when
   gridSize² * (1 - (rocks + food) / 100) is at least enemies + exits + 1,
   with the division an integer one. Mathf.Pow and the float comparison are
   exact for the sizes involved. Below a combined density of 100 the quotient
   is 0, so rocks and food do not count at all.
   */
  predicate CapacityCheck(n: int, rocks: int, food: int, enemies: int, exits: int): (ok: bool)
    ensures 0 <= rocks + food < 100 ==> (ok <==> enemies + exits < n * n)
  {
    n * n * (1 - TruncDiv(rocks + food, 100)) >= enemies + exits + 1
  }

  /**
   Because the density quotient is truncated, it is 0 for any combined density
   below 100: the check then only asks for room for the player, the exits and
   the enemies, ignoring rocks and food. From 100 the multiplier drops to 0,
   and at 200 to -1.
   */
  lemma CapacityMultiplier(n: int, rocks: int, food: int, enemies: int, exits: int)
    requires 0 <= rocks <= 100 && 0 <= food <= 100
    ensures rocks + food < 100 ==> (CapacityCheck(n, rocks, food, enemies, exits) <==> n * n >= enemies + exits + 1)
    ensures 100 <= rocks + food < 200 ==> (CapacityCheck(n, rocks, food, enemies, exits) <==> 0 >= enemies + exits + 1)
    ensures rocks + food == 200 ==> (CapacityCheck(n, rocks, food, enemies, exits) <==> -(n * n) >= enemies + exits + 1)
  {
    var q := TruncDiv(rocks + food, 100);
    assert rocks + food < 100 ==> q == 0;
    assert 100 <= rocks + food < 200 ==> q == 1;
    assert rocks + food == 200 ==> q == 2;
  }

  /**
   GenerateObjects' count `(int)Mathf.Pow(gridSize, 2) * percent / 100`,
   evaluated left to right in integers: the percentage of the tiles, rounded
   down, never more than all of them.
   */
  function SpawnCount(n: int, percent: int): (k: nat)
    requires n >= 0 && 0 <= percent <= 100
    ensures k * 100 <= n * n * percent < k * 100 + 100
    ensures k <= n * n
  {
    var cells := n * n;
    assert cells * percent >= 0;
    assert cells * percent <= cells * 100;
    TruncDiv(cells * percent, 100)
  }

  /**
   The check evidently intended: the tiles left once rocks and food take
   their share, gridSize² * (100 - rocks - food) / 100, leave room for the
   player, the exits and the enemies.
   */
  predicate IntendedCapacityCheck(n: int, rocks: int, food: int, enemies: int, exits: int)
  {
    n * n * (100 - (rocks + food)) >= 100 * (Max0(enemies) + exits + 1)
  }

  /**
   Under the intended check every occupant fits: the player, the exits and
   both density passes together leave at least one free tile per enemy.
   */
  lemma IntendedCheckLeavesRoom(n: int, rocks: int, food: int, enemies: int, exits: int)
    requires n >= 0 && 0 <= rocks <= 100 && 0 <= food <= 100
    requires IntendedCapacityCheck(n, rocks, food, enemies, exits)
    ensures 1 + exits + SpawnCount(n, rocks) + SpawnCount(n, food) + Max0(enemies) <= n * n
  {
    var cells := n * n;
    var r := SpawnCount(n, rocks);
    var f := SpawnCount(n, food);
    assert r * 100 <= cells * rocks;
    assert f * 100 <= cells * food;
    assert cells * (100 - (rocks + food)) == cells * 100 - cells * rocks - cells * food;
    assert 100 * (1 + exits + r + f + Max0(enemies)) <= cells * 100;
  }

  /**
   The check as written accepts a 5-by-5 level with 50% rocks, 49% food, one
   exit and no enemies, although the player, the exit, 12 rocks and 12 food
   need 26 of its 25 tiles; the intended check rejects it.
   */
  lemma CapacityCheckAdmitsOverfullLevel()
    ensures CapacityCheck(5, 50, 49, 0, 1)
    ensures 1 + 1 + SpawnCount(5, 50) + SpawnCount(5, 49) == 26 > 5 * 5
    ensures !IntendedCapacityCheck(5, 50, 49, 0, 1)
  {
    assert TruncDiv(99, 100) == 0;
    assert SpawnCount(5, 50) == 12;
    assert SpawnCount(5, 49) == 12;
  }
}

=== FILE: draws.dfy ===
/**
 Random candidate tiles. The generator draws from Unity's global random
 generator; here every phase is handed the raw draws its position sampling
 consumes, and those draws are read off as the sequence of candidate tiles
 GetRandomCorner or GetRandomGridPosition would have returned.
 */
module Draws {
  import opened Occupancy

  /**
   Unity's integer Random.Range(lo, hi): a raw draw reduced into [lo, hi).
   Every value of the range is the result of some draw.
   */
  function RandomRange(lo: int, hi: int, draw: int): (r: int)
    requires lo < hi
    ensures lo <= r < hi
    ensures 0 <= draw < hi - lo ==> r == lo + draw
  {
    lo + draw % (hi - lo)
  }

  /** What is being placed. Exits are drawn among corners, everything else among all tiles. */
  datatype Category = Exit | Rock | Food | Enemy

  /** How many raw draws one candidate consumes: one corner index, or an x then a y. */
  function Width(c: Category): nat
  {
    if c == Exit then 1 else 2
  }

  /** The tiles a category is drawn from: corners for exits, every tile otherwise. */
  function Pool(c: Category, n: int): set<Pos>
  {
    if c == Exit then Corners(n) else Square(n)
  }

  /**
   The candidate one chunk of draws yields: GetRandomCorner, an index into
   the corner table, for exits; GetRandomGridPosition, x drawn before y, for
   the other categories.
   */
  function Candidate(c: Category, n: int, chunk: seq<int>): (p: Pos)
    requires n >= 1 && |chunk| == Width(c)
    ensures p in Pool(c, n) && InBounds(p, n)
  {
    if c == Exit then Corner(n, RandomRange(0, 4, chunk[0]))
    else Pos(RandomRange(0, n, chunk[0]), RandomRange(0, n, chunk[1]))
  }

  /**
   The candidates a supply of draws yields, read off chunk by chunk. Each lies
   on the level, so every grid lookup the generator makes with it finds a tile.
   */
  function Candidates(c: Category, n: int, ds: seq<int>): (ps: seq<Pos>)
    requires n >= 1
    ensures |ps| == |ds| / Width(c)
    ensures forall i :: 0 <= i < |ps| ==> ps[i] in Pool(c, n) && InBounds(ps[i], n)
  {
    var w := Width(c);
    seq(|ds| / w, i requires 0 <= i < |ds| / w => Candidate(c, n, ds[w * i .. w * i + w]))
  }

  /** The i-th chunk of a supply of len draws lies inside the supply. */
  lemma ChunkFits(len: int, w: nat, i: int)
    requires 1 <= w <= 2 && 0 <= i < len / w
    ensures 0 <= w * i && w * i + w <= len
  {
  }

  /** A slice of a suffix is the slice shifted by the suffix's start. */
  lemma SliceOfSuffix(ds: seq<int>, s: nat, a: nat, len: nat)
    requires s + a + len <= |ds|
    ensures ds[s..][a .. a + len] == ds[s + a .. s + a + len]
  {
    var shifted, direct := ds[s..][a .. a + len], ds[s + a .. s + a + len];
    forall k | 0 <= k < len
      ensures shifted[k] == direct[k]
    {
    }
    assert shifted == direct;
  }

  /** Dropping the first chunk of draws drops the first candidate. */
  lemma CandidatesStep(c: Category, n: int, ds: seq<int>)
    requires n >= 1 && |ds| >= Width(c)
    ensures Candidates(c, n, ds) == [Candidate(c, n, ds[..Width(c)])] + Candidates(c, n, ds[Width(c)..])
  {
    var w := Width(c);
    var all := Candidates(c, n, ds);
    var tail := Candidates(c, n, ds[w..]);
    assert |all| == |tail| + 1;
    forall i | 0 <= i < |tail|
      ensures all[i + 1] == tail[i]
    {
      var a := w * i;
      ChunkFits(|ds| - w, w, i);
      assert w * (i + 1) == a + w;
      SliceOfSuffix(ds, w, a, w);
    }
    assert all[0] == Candidate(c, n, ds[..w]) by {
      assert ds[w * 0 .. w * 0 + w] == ds[..w];
    }
  }

  /** The index of a corner in the corner table. */
  function CornerIndex(n: int, p: Pos): (i: int)
    requires p in Corners(n)
    ensures 0 <= i < 4 && Corner(n, i) == p
  {
    if p == Pos(0, 0) then 0
    else if p == Pos(0, n - 1) then 1
    else if p == Pos(n - 1, 0) then 2
    else 3
  }

  /** Draws that make the generator propose tile p. */
  function Chunk(c: Category, n: int, p: Pos): (chunk: seq<int>)
    requires n >= 1 && p in Pool(c, n)
    ensures |chunk| == Width(c)
  {
    if c == Exit then [CornerIndex(n, p)] else [p.x, p.y]
  }

  lemma ChunkProposes(c: Category, n: int, p: Pos)
    requires n >= 1 && p in Pool(c, n)
    ensures Candidate(c, n, Chunk(c, n, p)) == p
  {
  }

  /** Draws that yield exactly the candidates cs. */
  lemma {:induction false} DrawsFor(c: Category, n: int, cs: seq<Pos>) returns (ds: seq<int>)
    requires n >= 1
    requires forall i :: 0 <= i < |cs| ==> cs[i] in Pool(c, n)
    ensures Candidates(c, n, ds) == cs
  {
    if |cs| == 0 {
      ds := [];
    } else {
      var more := DrawsFor(c, n, cs[1..]);
      ds := Chunk(c, n, cs[0]) + more;
      CandidatesStep(c, n, ds);
      assert ds[..Width(c)] == Chunk(c, n, cs[0]);
      assert ds[Width(c)..] == more;
      ChunkProposes(c, n, cs[0]);
      assert cs == [cs[0]] + cs[1..];
    }
  }

  /**
   Every sequence of tiles from a category's pool is what some supply of
   draws proposes: the draws reach every placement the generator can make.
   */
  lemma CandidatesOnto(c: Category, n: int, cs: seq<Pos>)
    requires n >= 1
    requires forall i :: 0 <= i < |cs| ==> cs[i] in Pool(c, n)
    ensures exists ds :: Candidates(c, n, ds) == cs
  {
    var ds := DrawsFor(c, n, cs);
  }
}

=== FILE: floor.dfy ===
/**
 GenerateFloor: one tile per coordinate of the n-by-n level, all free, then
 the player's tile marked occupied (SetPlayerTileOccupied).
 */
module FloorBuild {
  import opened Occupancy

  /** The grid the floor build leaves behind. */
  function Floor(n: int): Grid
  {
    map p | p in Square(n) :: p == Origin(n)
  }

  /**
   The floor has exactly the n² coordinates of the level as keys, and the
   player's rounded-down tile is the only occupied one.
   */
  lemma FloorShape(n: int)
    requires n >= 1
    ensures Floor(n).Keys == Square(n)
    ensures |Floor(n)| == n * n
    ensures Occupied(Floor(n)) == {Origin(n)}
  {
    SquareSize(n);
    OriginPlacement(n);
    assert Floor(n).Keys == Square(n);
    assert Occupied(Floor(n)) == {Origin(n)};
  }

  /**
   The nested loops of GenerateFloor. Each tile is added with Dictionary.Add,
   which throws on a key already present, so every key must be new when it is
   added; then the player's tile, which must exist, is marked occupied.
   */
  method BuildFloor(n: int) returns (g: Grid)
    requires n >= 1
    ensures g == Floor(n)
  {
    g := map[];
    var x := 0;
    while x < n
      invariant 0 <= x <= n
      invariant g.Keys == Rect(x, n)
      invariant forall p :: p in g ==> !g[p]
    {
      g := AddColumn(g, x, n);
      x := x + 1;
    }
    OriginPlacement(n);
    assert Origin(n) in g;
    g := g[Origin(n) := true];
    assert g.Keys == Floor(n).Keys;
  }

  /** The inner loop of GenerateFloor: the free tiles of column x, each added once. */
  method AddColumn(g0: Grid, x: int, n: int) returns (g: Grid)
    requires 0 <= x < n && g0.Keys == Rect(x, n)
    requires forall p :: p in g0 ==> !g0[p]
    ensures g.Keys == Rect(x + 1, n)
    ensures forall p :: p in g ==> !g[p]
  {
    g := g0;
    var y := 0;
    while y < n
      invariant 0 <= y <= n
      invariant g.Keys == Rect(x, n) + Column(x, y)
      invariant forall p :: p in g ==> !g[p]
    {
      assert Pos(x, y) !in g;
      g := g[Pos(x, y) := false];
      y := y + 1;
    }
  }
}

=== FILE: generate.dfy ===
/**
 The generator end to end: Awake draws the level size and puts the player in
 the centre; Start runs the capacity check, builds the floor, then places
 exits, rocks, food and enemies, in that order.
 */
module Generation {
  import opened Wrappers
  import opened Occupancy
  import opened Capacity
  import opened FloorBuild
  import opened Draws
  import opened Sampling
  import opened Placement
  import opened PlacementFacts

  /** The inspector fields the placement reads. */
  datatype Config = Config(
    minGridSize: int, maxGridSize: int,
    percentRocks: int, percentFood: int,
    exits: int, enemies: int, closestSpawnDistance: int)

  /**
   The inspector's Range attributes (sizes 5 to 1000, densities 0 to 100,
   1 to 4 exits) and a size range that is not empty.
   */
  predicate ValidConfig(cfg: Config): (ok: bool)
    ensures ok ==> cfg.exits + 1 <= 25 <= cfg.minGridSize * cfg.minGridSize
  {
    5 <= cfg.minGridSize <= cfg.maxGridSize <= 1000
    && 0 <= cfg.percentRocks <= 100 && 0 <= cfg.percentFood <= 100
    && 1 <= cfg.exits <= 4
  }

  /** The raw draws of one run, split by the step that consumes them. */
  datatype Rolls = Rolls(size: int, exits: seq<int>, rocks: seq<int>, food: seq<int>, enemies: seq<int>)

  /** Awake's Random.Range(minGridSize, maxGridSize + 1): both bounds can come out. */
  function GridSize(cfg: Config, draw: int): (n: int)
    requires ValidConfig(cfg)
    ensures cfg.minGridSize <= n <= cfg.maxGridSize
  {
    RandomRange(cfg.minGridSize, cfg.maxGridSize + 1, draw)
  }

  /** Every size of the configured range is drawn by some draw. */
  lemma GridSizeReachable(cfg: Config, n: int)
    requires ValidConfig(cfg) && cfg.minGridSize <= n <= cfg.maxGridSize
    ensures exists draw :: GridSize(cfg, draw) == n
  {
    assert GridSize(cfg, n - cfg.minGridSize) == n;
  }

  /** The number of rocks and food GenerateObjects places on an n-by-n level. */
  function RockCount(cfg: Config, n: int): nat
    requires ValidConfig(cfg) && n >= 0
  {
    SpawnCount(n, cfg.percentRocks)
  }

  function FoodCount(cfg: Config, n: int): nat
    requires ValidConfig(cfg) && n >= 0
  {
    SpawnCount(n, cfg.percentFood)
  }

  /** The level after the three passes that mark tiles, with where each object went. */
  datatype Layout = Layout(grid: Grid, exits: seq<Pos>, rocks: seq<Pos>, food: seq<Pos>)

  /**
   GenerateFloor, SpawnExits and the two GenerateObjects calls of Start, each
   pass on the grid the previous one left. A pass that runs out of candidates
   ends the run.
   */
  function Populate(cfg: Config, n: int, exitDraws: seq<int>, rockDraws: seq<int>, foodDraws: seq<int>): (r: Result<Layout, Stall>)
    requires ValidConfig(cfg) && n >= 1
    ensures r.Success? ==> r.value.grid.Keys == Square(n)
    ensures r.Success? ==> |r.value.exits| == cfg.exits && |r.value.rocks| == RockCount(cfg, n)
                           && |r.value.food| == FoodCount(cfg, n)
    ensures r.Failure? ==> r.error.category != Enemy
  {
    FloorShape(n);
    var origin := Origin(n);
    var dist := cfg.closestSpawnDistance;
    match PlaceMany(Exit, Floor(n), origin, dist, Candidates(Exit, n, exitDraws), cfg.exits)
    case Failure(e) => Failure(e)
    case Success(ex) =>
      match PlaceMany(Rock, ex.grid, origin, dist, Candidates(Rock, n, rockDraws), RockCount(cfg, n))
      case Failure(e) => Failure(e)
      case Success(rk) =>
        match PlaceMany(Food, rk.grid, origin, dist, Candidates(Food, n, foodDraws), FoodCount(cfg, n))
        case Failure(e) => Failure(e)
        case Success(fd) => Success(Layout(fd.grid, ex.spots, rk.spots, fd.spots))
  }

  /** A finished level: its size, the capacity check's verdict, the grid and every placement. */
  datatype Level = Level(size: int, capacityOk: bool, grid: Grid,
                         exits: seq<Pos>, rocks: seq<Pos>, food: seq<Pos>, enemies: seq<Pos>)

  /**
   Awake then Start. The capacity check only reports: a failed check asks the
   editor or the application to quit, which does not stop the rest of Start,
   so generation goes on either way.
   */
  function Generate(cfg: Config, rolls: Rolls): (r: Result<Level, Stall>)
    requires ValidConfig(cfg)
    ensures r.Success? ==> cfg.minGridSize <= r.value.size <= cfg.maxGridSize
                           && r.value.grid.Keys == Square(r.value.size)
    ensures r.Success? ==> |r.value.exits| == cfg.exits && |r.value.enemies| == Max0(cfg.enemies)
  {
    var n := GridSize(cfg, rolls.size);
    match Populate(cfg, n, rolls.exits, rolls.rocks, rolls.food)
    case Failure(e) => Failure(e)
    case Success(lay) =>
      match PlaceMany(Enemy, lay.grid, Origin(n), cfg.closestSpawnDistance,
                      Candidates(Enemy, n, rolls.enemies), Max0(cfg.enemies))
      case Failure(e) => Failure(e)
      case Success(en) =>
        var ok := CapacityCheck(n, cfg.percentRocks, cfg.percentFood, cfg.enemies, cfg.exits);
        Success(Level(n, ok, en.grid, lay.exits, lay.rocks, lay.food, en.spots))
  }

  /** A successful Populate is three successful passes in a row. */
  lemma PopulateParts(cfg: Config, n: int, exitDraws: seq<int>, rockDraws: seq<int>, foodDraws: seq<int>)
    returns (ex: Phase, rk: Phase, fd: Phase)
    requires ValidConfig(cfg) && n >= 1
    requires Populate(cfg, n, exitDraws, rockDraws, foodDraws).Success?
    ensures PlaceMany(Exit, Floor(n), Origin(n), cfg.closestSpawnDistance, Candidates(Exit, n, exitDraws), cfg.exits) == Success(ex)
    ensures PlaceMany(Rock, ex.grid, Origin(n), cfg.closestSpawnDistance, Candidates(Rock, n, rockDraws), RockCount(cfg, n)) == Success(rk)
    ensures PlaceMany(Food, rk.grid, Origin(n), cfg.closestSpawnDistance, Candidates(Food, n, foodDraws), FoodCount(cfg, n)) == Success(fd)
    ensures Populate(cfg, n, exitDraws, rockDraws, foodDraws).value == Layout(fd.grid, ex.spots, rk.spots, fd.spots)
  {
    var origin := Origin(n);
    var dist := cfg.closestSpawnDistance;
    ex := PlaceMany(Exit, Floor(n), origin, dist, Candidates(Exit, n, exitDraws), cfg.exits).value;
    rk := PlaceMany(Rock, ex.grid, origin, dist, Candidates(Rock, n, rockDraws), RockCount(cfg, n)).value;
    fd := PlaceMany(Food, rk.grid, origin, dist, Candidates(Food, n, foodDraws), FoodCount(cfg, n)).value;
  }

  /** Three marking passes in a row add their tiles, one per object, to the occupied set. */
  lemma ThreePassesOccupy(g: Grid, origin: Pos, dist: int, csE: seq<Pos>, csR: seq<Pos>, csF: seq<Pos>,
                          e: nat, r: nat, f: nat, ex: Phase, rk: Phase, fd: Phase)
    requires PlaceMany(Exit, g, origin, dist, csE, e) == Success(ex)
    requires PlaceMany(Rock, ex.grid, origin, dist, csR, r) == Success(rk)
    requires PlaceMany(Food, rk.grid, origin, dist, csF, f) == Success(fd)
    ensures Occupied(fd.grid) == Occupied(g) + Elems(ex.spots) + Elems(rk.spots) + Elems(fd.spots)
    ensures |Occupied(fd.grid)| == |Occupied(g)| + e + r + f
  {
    PlacementOccupies(Exit, g, origin, dist, csE, e);
    PlacementOccupies(Rock, ex.grid, origin, dist, csR, r);
    PlacementOccupies(Food, rk.grid, origin, dist, csF, f);
  }

  /**
   After the marking passes exactly the player's tile and the tiles of the
   exits, rocks and food are occupied, one tile per object.
   */
  lemma PopulateOccupancy(cfg: Config, n: int, exitDraws: seq<int>, rockDraws: seq<int>, foodDraws: seq<int>)
    requires ValidConfig(cfg) && n >= 1
    ensures var r := Populate(cfg, n, exitDraws, rockDraws, foodDraws);
            r.Success? ==>
              Occupied(r.value.grid) == {Origin(n)} + Elems(r.value.exits) + Elems(r.value.rocks) + Elems(r.value.food)
              && |Occupied(r.value.grid)| == 1 + cfg.exits + RockCount(cfg, n) + FoodCount(cfg, n)
  {
    if Populate(cfg, n, exitDraws, rockDraws, foodDraws).Success? {
      var ex, rk, fd := PopulateParts(cfg, n, exitDraws, rockDraws, foodDraws);
      FloorShape(n);
      ThreePassesOccupy(Floor(n), Origin(n), cfg.closestSpawnDistance, Candidates(Exit, n, exitDraws),
                        Candidates(Rock, n, rockDraws), Candidates(Food, n, foodDraws),
                        cfg.exits, RockCount(cfg, n), FoodCount(cfg, n), ex, rk, fd);
    }
  }

  lemma ElemsConcat(a: seq<Pos>, b: seq<Pos>)
    ensures Elems(a + b) == Elems(a) + Elems(b)
  {
  }

  /**
   No two of the exits, rocks and food share a tile, and none stands on the
   player's tile.
   */
  lemma PopulateSeparates(cfg: Config, n: int, exitDraws: seq<int>, rockDraws: seq<int>, foodDraws: seq<int>)
    requires ValidConfig(cfg) && n >= 1
    ensures var r := Populate(cfg, n, exitDraws, rockDraws, foodDraws);
            r.Success? ==> var s := r.value.exits + r.value.rocks + r.value.food;
                           Distinct(s) && Origin(n) !in Elems(s)
  {
    var r := Populate(cfg, n, exitDraws, rockDraws, foodDraws);
    if r.Success? {
      var s := r.value.exits + r.value.rocks + r.value.food;
      PopulateOccupancy(cfg, n, exitDraws, rockDraws, foodDraws);
      ElemsConcat(r.value.exits, r.value.rocks);
      ElemsConcat(r.value.exits + r.value.rocks, r.value.food);
      var e := Elems(s);
      assert Occupied(r.value.grid) == {Origin(n)} + e;
      assert |{Origin(n)} + e| == 1 + |s|;
      UnionSize({Origin(n)}, e);
      ElemsSize(s);
      DistinctIfFull(s);
      assert Origin(n) !in e;
    }
  }

  /** Every exit stands on a corner of the level. */
  lemma PopulateExitsAtCorners(cfg: Config, n: int, exitDraws: seq<int>, rockDraws: seq<int>, foodDraws: seq<int>)
    requires ValidConfig(cfg) && n >= 1
    ensures var r := Populate(cfg, n, exitDraws, rockDraws, foodDraws);
            r.Success? ==> forall i :: 0 <= i < |r.value.exits| ==> r.value.exits[i] in Corners(n)
  {
    if Populate(cfg, n, exitDraws, rockDraws, foodDraws).Success? {
      var ex, rk, fd := PopulateParts(cfg, n, exitDraws, rockDraws, foodDraws);
      PlacementFromSupply(Exit, Floor(n), Origin(n), cfg.closestSpawnDistance, Candidates(Exit, n, exitDraws), cfg.exits);
    }
  }

  /** The free tiles of a level: all of them but the occupied ones. */
  lemma FreeTiles(g: Grid, n: nat)
    requires g.Keys == Square(n)
    ensures Occupied(g) <= Square(n)
    ensures |Square(n) - Occupied(g)| == n * n - |Occupied(g)|
  {
    SquareSize(n);
    var o := Occupied(g);
    assert Square(n) == (Square(n) - o) + o;
    assert (Square(n) - o) * o == {};
  }

  /**
   The marking passes need a tile each, next to the player's: when the
   player, the exits, the rocks and the food outnumber the tiles, they stall
   whatever the draws.
   */
  lemma PopulateNeedsRoom(cfg: Config, n: int, exitDraws: seq<int>, rockDraws: seq<int>, foodDraws: seq<int>)
    requires ValidConfig(cfg) && n >= 1
    requires 1 + cfg.exits + RockCount(cfg, n) + FoodCount(cfg, n) > n * n
    ensures Populate(cfg, n, exitDraws, rockDraws, foodDraws).Failure?
  {
    var r := Populate(cfg, n, exitDraws, rockDraws, foodDraws);
    if r.Success? {
      PopulateOccupancy(cfg, n, exitDraws, rockDraws, foodDraws);
      FreeTiles(r.value.grid, n);
      assert false;
    }
  }

  /** One marking pass with draws chosen to fill it from the room it has. */
  lemma NextPass(c: Category, g: Grid, n: int, origin: Pos, dist: int, count: nat) returns (ds: seq<int>, ph: Phase)
    requires n >= 1 && g.Keys == Square(n) && Marks(c)
    requires count <= |Room(c, g, n)|
    ensures PlaceMany(c, g, origin, dist, Candidates(c, n, ds), count) == Success(ph)
    ensures ph.grid.Keys == Square(n) && |Occupied(ph.grid)| == |Occupied(g)| + count
  {
    var cs := FillingCandidates(c, g, n, origin, dist, count);
    ds := DrawsFor(c, n, cs);
    ph := PlaceMany(c, g, origin, dist, cs, count).value;
    PlacementOccupies(c, g, origin, dist, cs, count);
  }

  /** Populate succeeds once each of its three passes does. */
  lemma PopulateOfParts(cfg: Config, n: int, exitDraws: seq<int>, rockDraws: seq<int>, foodDraws: seq<int>,
                        ex: Phase, rk: Phase, fd: Phase)
    requires ValidConfig(cfg) && n >= 1
    requires PlaceMany(Exit, Floor(n), Origin(n), cfg.closestSpawnDistance, Candidates(Exit, n, exitDraws), cfg.exits) == Success(ex)
    requires PlaceMany(Rock, ex.grid, Origin(n), cfg.closestSpawnDistance, Candidates(Rock, n, rockDraws), RockCount(cfg, n)) == Success(rk)
    requires PlaceMany(Food, rk.grid, Origin(n), cfg.closestSpawnDistance, Candidates(Food, n, foodDraws), FoodCount(cfg, n)) == Success(fd)
    ensures Populate(cfg, n, exitDraws, rockDraws, foodDraws) == Success(Layout(fd.grid, ex.spots, rk.spots, fd.spots))
  {
  }

  /**
   When the player, the exits, the rocks and the food fit on the level, some
   draws let all three marking passes finish. On a level at least 3 wide the
   player is never on a corner, so the four corners are free for the exits.
   */
  lemma PopulateCanFinish(cfg: Config, n: int) returns (exitDraws: seq<int>, rockDraws: seq<int>, foodDraws: seq<int>)
    requires ValidConfig(cfg) && n >= 3
    requires 1 + cfg.exits + RockCount(cfg, n) + FoodCount(cfg, n) <= n * n
    ensures Populate(cfg, n, exitDraws, rockDraws, foodDraws).Success?
  {
    var origin, dist := Origin(n), cfg.closestSpawnDistance;
    var ex, rk, fd;
    exitDraws, ex := ExitPass(n, origin, dist, cfg.exits);
    rockDraws, rk := DensityPass(Rock, ex.grid, n, origin, dist, RockCount(cfg, n));
    foodDraws, fd := DensityPass(Food, rk.grid, n, origin, dist, FoodCount(cfg, n));
    PopulateOfParts(cfg, n, exitDraws, rockDraws, foodDraws, ex, rk, fd);
  }

  /** Up to four exits fit on the floor of a level at least 3 wide. */
  lemma ExitPass(n: int, origin: Pos, dist: int, count: nat) returns (ds: seq<int>, ph: Phase)
    requires n >= 3 && count <= 4
    ensures PlaceMany(Exit, Floor(n), origin, dist, Candidates(Exit, n, ds), count) == Success(ph)
    ensures ph.grid.Keys == Square(n) && |Occupied(ph.grid)| == 1 + count
  {
    FloorShape(n);
    OriginPlacement(n);
    CornersOfLevel(n);
    assert Room(Exit, Floor(n), n) == Corners(n);
    ds, ph := NextPass(Exit, Floor(n), n, origin, dist, count);
  }

  /** A rock or food pass fits when the free tiles number at least its count. */
  lemma DensityPass(c: Category, g: Grid, n: int, origin: Pos, dist: int, count: nat) returns (ds: seq<int>, ph: Phase)
    requires c == Rock || c == Food
    requires n >= 1 && g.Keys == Square(n)
    requires |Occupied(g)| + count <= n * n
    ensures PlaceMany(c, g, origin, dist, Candidates(c, n, ds), count) == Success(ph)
    ensures ph.grid.Keys == Square(n) && |Occupied(ph.grid)| == |Occupied(g)| + count
  {
    FreeTiles(g, n);
    assert Room(c, g, n) == Square(n) - Occupied(g);
    ds, ph := NextPass(c, g, n, origin, dist, count);
  }

  /**
   The marking passes can finish, for some draws, exactly when the player,
   the exits, the rocks and the food fit on the level one per tile.
   */
  lemma PopulateCanFinishIff(cfg: Config, n: int)
    requires ValidConfig(cfg) && n >= 3
    ensures (exists e, r, f :: Populate(cfg, n, e, r, f).Success?)
            <==> 1 + cfg.exits + RockCount(cfg, n) + FoodCount(cfg, n) <= n * n
  {
    if 1 + cfg.exits + RockCount(cfg, n) + FoodCount(cfg, n) <= n * n {
      var e, r, f := PopulateCanFinish(cfg, n);
    } else {
      forall e, r, f
        ensures Populate(cfg, n, e, r, f).Failure?
      {
        PopulateNeedsRoom(cfg, n, e, r, f);
      }
    }
  }

  /** A successful run is a successful Populate followed by a successful enemy pass. */
  lemma GenerateParts(cfg: Config, rolls: Rolls) returns (lay: Layout, en: Phase)
    requires ValidConfig(cfg) && Generate(cfg, rolls).Success?
    ensures var n := GridSize(cfg, rolls.size);
            Populate(cfg, n, rolls.exits, rolls.rocks, rolls.food) == Success(lay)
            && PlaceMany(Enemy, lay.grid, Origin(n), cfg.closestSpawnDistance,
                         Candidates(Enemy, n, rolls.enemies), Max0(cfg.enemies)) == Success(en)
            && Generate(cfg, rolls).value
               == Level(n, CapacityCheck(n, cfg.percentRocks, cfg.percentFood, cfg.enemies, cfg.exits),
                        lay.grid, lay.exits, lay.rocks, lay.food, en.spots)
  {
    var n := GridSize(cfg, rolls.size);
    lay := Populate(cfg, n, rolls.exits, rolls.rocks, rolls.food).value;
    en := PlaceMany(Enemy, lay.grid, Origin(n), cfg.closestSpawnDistance,
                    Candidates(Enemy, n, rolls.enemies), Max0(cfg.enemies)).value;
  }

  /**
   A finished level: the player's tile and the tiles of the exits, rocks and
   food are the occupied ones, no two of those share a tile, the exits are on
   corners, and the capacity check's verdict is the one for the drawn size.
   */
  lemma GenerateLayout(cfg: Config, rolls: Rolls)
    requires ValidConfig(cfg)
    ensures var r := Generate(cfg, rolls);
            r.Success? ==>
              var lv := r.value;
              var s := lv.exits + lv.rocks + lv.food;
              Occupied(lv.grid) == {Origin(lv.size)} + Elems(lv.exits) + Elems(lv.rocks) + Elems(lv.food)
              && Distinct(s) && Origin(lv.size) !in Elems(s)
              && (forall i :: 0 <= i < |lv.exits| ==> lv.exits[i] in Corners(lv.size))
              && |lv.rocks| == RockCount(cfg, lv.size) && |lv.food| == FoodCount(cfg, lv.size)
              && (lv.capacityOk <==> CapacityCheck(lv.size, cfg.percentRocks, cfg.percentFood, cfg.enemies, cfg.exits))
  {
    if Generate(cfg, rolls).Success? {
      var n := GridSize(cfg, rolls.size);
      var lay, en := GenerateParts(cfg, rolls);
      PopulateOccupancy(cfg, n, rolls.exits, rolls.rocks, rolls.food);
      PopulateSeparates(cfg, n, rolls.exits, rolls.rocks, rolls.food);
      PopulateExitsAtCorners(cfg, n, rolls.exits, rolls.rocks, rolls.food);
    }
  }

  /**
   Every enemy stands on a tile of the level that nothing else occupies, at
   least closestSpawnDistanceFromPlayer away from the player.
   */
  lemma GenerateEnemies(cfg: Config, rolls: Rolls)
    requires ValidConfig(cfg)
    ensures var r := Generate(cfg, rolls);
            r.Success? ==>
              var lv := r.value;
              forall i :: 0 <= i < |lv.enemies| ==>
                lv.enemies[i] in Square(lv.size) && lv.enemies[i] !in Occupied(lv.grid)
                && !TooClose(Origin(lv.size), lv.enemies[i], cfg.closestSpawnDistance)
  {
    if Generate(cfg, rolls).Success? {
      var lay, en := GenerateParts(cfg, rolls);
    }
  }

  /**
   The level of the capacity finding never finishes: the check as written
   accepts it, yet the food pass stalls whatever the draws.
   */
  lemma OverfullLevelNeverFinishes(rolls: Rolls)
    ensures var cfg := Config(5, 5, 50, 49, 1, 0, 2);
            ValidConfig(cfg) && CapacityCheck(5, 50, 49, 0, 1) && Generate(cfg, rolls).Failure?
  {
    var cfg := Config(5, 5, 50, 49, 1, 0, 2);
    CapacityCheckAdmitsOverfullLevel();
    assert GridSize(cfg, rolls.size) == 5;
    PopulateNeedsRoom(cfg, 5, rolls.exits, rolls.rocks, rolls.food);
  }

  /**
   Under the intended capacity check the marking passes can always finish:
   for every size draw there are draws that place the exits, rocks and food.
   */
  lemma IntendedCheckLetsPopulateFinish(cfg: Config, draw: int)
    requires ValidConfig(cfg)
    requires var n := GridSize(cfg, draw);
             IntendedCapacityCheck(n, cfg.percentRocks, cfg.percentFood, cfg.enemies, cfg.exits)
    ensures exists e, r, f :: Populate(cfg, GridSize(cfg, draw), e, r, f).Success?
  {
    var n := GridSize(cfg, draw);
    IntendedCheckLeavesRoom(n, cfg.percentRocks, cfg.percentFood, cfg.enemies, cfg.exits);
    PopulateCanFinishIff(cfg, n);
  }

  /** The tiles of the level an enemy may stand on as far as the distance rule goes. */
  function FarTiles(n: int, dist: int): set<Pos>
  {
    set p | p in Square(n) && !TooClose(Origin(n), p, dist)
  }

  /**
   A pre-flight check that also accounts for the enemies' distance rule: the
   intended capacity check, and, when there are enemies, more tiles far enough
   from the player than the exits, rocks and food together, so that one of
   them is free whatever those passes take.
   */
  predicate SpawnCheck(cfg: Config, n: int)
    requires ValidConfig(cfg) && n >= 0
  {
    IntendedCapacityCheck(n, cfg.percentRocks, cfg.percentFood, cfg.enemies, cfg.exits)
    && (cfg.enemies <= 0
        || cfg.exits + RockCount(cfg, n) + FoodCount(cfg, n) < |FarTiles(n, cfg.closestSpawnDistance) - {Origin(n)}|)
  }

  /** A grid whose occupied tiles are the player's and k more still has a far tile free when there are more than k far tiles. */
  lemma FarTileLeftFree(g: Grid, n: int, dist: int, k: nat) returns (p: Pos)
    requires Origin(n) in Occupied(g) && |Occupied(g)| == 1 + k
    requires k < |FarTiles(n, dist) - {Origin(n)}|
    ensures p in Square(n) && p !in Occupied(g) && !TooClose(Origin(n), p, dist)
  {
    var a := FarTiles(n, dist) - {Origin(n)};
    var b := Occupied(g) - {Origin(n)};
    assert |b| == k;
    assert a <= (a - b) + b;
    SubsetSize(a, (a - b) + b);
    UnionSize(a - b, b);
    p :| p in a - b;
  }

  /** Draws for the enemy pass on a level with an acceptable tile, or with no enemies to place. */
  lemma EnemyDraws(g: Grid, n: int, origin: Pos, dist: int, count: nat, p: Pos) returns (ds: seq<int>)
    requires n >= 1 && InBounds(p, n)
    requires count > 0 ==> Acceptable(Enemy, g, origin, dist, p)
    ensures PlaceMany(Enemy, g, origin, dist, Candidates(Enemy, n, ds), count).Success?
  {
    if count > 0 {
      EnemiesMayShareTile(g, n, origin, dist, p, count);
      ds :| PlaceMany(Enemy, g, origin, dist, Candidates(Enemy, n, ds), count).Success?;
    } else {
      ds := [];
    }
  }

  /** A run succeeds once Populate and the enemy pass do. */
  lemma GenerateOfParts(cfg: Config, rolls: Rolls, lay: Layout)
    requires ValidConfig(cfg)
    requires var n := GridSize(cfg, rolls.size);
             Populate(cfg, n, rolls.exits, rolls.rocks, rolls.food) == Success(lay)
             && PlaceMany(Enemy, lay.grid, Origin(n), cfg.closestSpawnDistance,
                          Candidates(Enemy, n, rolls.enemies), Max0(cfg.enemies)).Success?
    ensures Generate(cfg, rolls).Success?
  {
  }

  /**
   Under the distance-aware check a run can always finish: for every size
   draw some draws place every exit, rock, food and enemy.
   */
  lemma SpawnCheckLetsGenerateFinish(cfg: Config, draw: int)
    requires ValidConfig(cfg) && SpawnCheck(cfg, GridSize(cfg, draw))
    ensures exists rolls: Rolls :: rolls.size == draw && Generate(cfg, rolls).Success?
  {
    var n := GridSize(cfg, draw);
    var dist := cfg.closestSpawnDistance;
    var k := cfg.exits + RockCount(cfg, n) + FoodCount(cfg, n);
    IntendedCheckLeavesRoom(n, cfg.percentRocks, cfg.percentFood, cfg.enemies, cfg.exits);
    var e, r, f := PopulateCanFinish(cfg, n);
    var lay := Populate(cfg, n, e, r, f).value;
    PopulateOccupancy(cfg, n, e, r, f);
    var p := Origin(n);
    OriginPlacement(n);
    if cfg.enemies > 0 {
      p := FarTileLeftFree(lay.grid, n, dist, k);
    }
    var ds := EnemyDraws(lay.grid, n, Origin(n), dist, Max0(cfg.enemies), p);
    GenerateOfParts(cfg, Rolls(draw, e, r, f, ds), lay);
  }

  /** On the 5-by-5 level every tile is closer than 10 to the player. */
  lemma SmallLevelIsNear(p: Pos)
    requires p in Square(5)
    ensures TooClose(Origin(5), p, 10)
  {
    var dx, dy := p.x - 2, p.y - 2;
    assert dx * dx <= 4 && dy * dy <= 4 by {
      assert -2 <= dx <= 2 && -2 <= dy <= 2;
    }
  }

  /**
   Neither capacity check looks at the distance rule: a 5-by-5 level with one
   exit, one enemy and closestSpawnDistanceFromPlayer 10 passes both, yet no
   tile is far enough, so the enemy pass stalls whatever the draws. The
   distance-aware check rejects it.
   */
  lemma SpawnDistanceBlocksEnemies(rolls: Rolls)
    ensures var cfg := Config(5, 5, 0, 0, 1, 1, 10);
            ValidConfig(cfg) && CapacityCheck(5, 0, 0, 1, 1) && IntendedCapacityCheck(5, 0, 0, 1, 1)
            && !SpawnCheck(cfg, 5) && Generate(cfg, rolls).Failure?
  {
    var cfg := Config(5, 5, 0, 0, 1, 1, 10);
    assert TruncDiv(0, 100) == 0;
    assert GridSize(cfg, rolls.size) == 5;
    assert FarTiles(5, 10) == {} by {
      forall q | q in Square(5)
        ensures TooClose(Origin(5), q, 10)
      {
        SmallLevelIsNear(q);
      }
    }
    if Generate(cfg, rolls).Success? {
      GenerateEnemies(cfg, rolls);
      var lv := Generate(cfg, rolls).value;
      SmallLevelIsNear(lv.enemies[0]);
      assert false;
    }
  }
}

=== FILE: occupancy.dfy ===
/**
 The occupancy grid of a level: one entry per floor tile, keyed by its integer
 coordinate, holding whether something already stands on the tile. The level
 generator keeps it in a dictionary from Vector2 to GroundTile; only the
 tile's Occupied flag matters to placement, so a tile is a bool here.
 */
module Occupancy {

  /** A grid coordinate. The generator only ever builds vectors with integral components. */
  datatype Pos = Pos(x: int, y: int)

  /** Occupancy flag per floor tile. */
  type Grid = map<Pos, bool>

  predicate InBounds(p: Pos, n: int)
  {
    0 <= p.x < n && 0 <= p.y < n
  }

  /** The tiles of column x with 0 <= y < h. */
  function Column(x: int, h: int): (s: set<Pos>)
    ensures forall p :: p in s <==> p.x == x && 0 <= p.y < h
  {
    set y | 0 <= y < h :: Pos(x, y)
  }

  /** The tiles with 0 <= x < w and 0 <= y < h. */
  function Rect(w: int, h: int): (s: set<Pos>)
    ensures forall p :: p in s <==> 0 <= p.x < w && 0 <= p.y < h
  {
    set x, y | 0 <= x < w && 0 <= y < h :: Pos(x, y)
  }

  /** Every coordinate of an n-by-n level. */
  function Square(n: int): (s: set<Pos>)
    ensures forall p :: p in s <==> InBounds(p, n)
  {
    Rect(n, n)
  }

  /**
   The corner the generator's corner table holds at index i: bottom-left,
   top-left, bottom-right, top-right. The high bit of the index picks the
   column, the low bit the row.
   */
  function Corner(n: int, i: int): (c: Pos)
    requires 0 <= i < 4
    ensures c.x == (if i < 2 then 0 else n - 1)
    ensures c.y == (if i % 2 == 0 then 0 else n - 1)
  {
    [Pos(0, 0), Pos(0, n - 1), Pos(n - 1, 0), Pos(n - 1, n - 1)][i]
  }

  /** The corners of an n-by-n level: the entries of the corner table. */
  function Corners(n: int): set<Pos>
  {
    set i | 0 <= i < 4 :: Corner(n, i)
  }

  /** The corner set written out. */
  lemma CornersListed(n: int)
    ensures Corners(n) == {Pos(0, 0), Pos(0, n - 1), Pos(n - 1, 0), Pos(n - 1, n - 1)}
  {
    assert Corner(n, 0) == Pos(0, 0);
    assert Corner(n, 1) == Pos(0, n - 1);
    assert Corner(n, 2) == Pos(n - 1, 0);
    assert Corner(n, 3) == Pos(n - 1, n - 1);
  }

  /**
   The player's starting tile: the centre, rounded down by integer division,
   on the diagonal.
   */
  function Origin(n: int): (o: Pos)
    ensures o.x == o.y
    ensures n >= 0 ==> 0 <= n - 2 * o.x < 2
  {
    Pos(n / 2, n / 2)
  }

  /** The tiles something stands on. */
  function Occupied(g: Grid): set<Pos>
  {
    set p | p in g && g[p]
  }

  /** Marks one free tile occupied, as `grid[spawnPosition].Occupied = true` does. */
  function Occupy(g: Grid, p: Pos): (r: Grid)
    requires p in g && !g[p]
    ensures r.Keys == g.Keys && r[p]
    ensures forall q {:trigger r[q]} :: q in g && q != p ==> r[q] == g[q]
  {
    g[p := true]
  }

  /** Occupying a free tile adds exactly that tile to the occupied set. */
  lemma OccupyAdds(g: Grid, p: Pos)
    requires p in g && !g[p]
    ensures p !in Occupied(g)
    ensures Occupied(Occupy(g, p)) == Occupied(g) + {p}
    ensures |Occupied(Occupy(g, p))| == |Occupied(g)| + 1
  {
    assert Occupied(Occupy(g, p)) == Occupied(g) + {p};
  }

  /** No coordinate appears twice. */
  predicate Distinct(s: seq<Pos>)
  {
    forall i, j :: 0 <= i < j < |s| ==> s[i] != s[j]
  }

  /** The coordinates a sequence mentions. */
  function Elems(s: seq<Pos>): set<Pos>
  {
    set p | p in s
  }

  lemma {:induction false} ColumnSize(x: int, h: nat)
    ensures |Column(x, h)| == h
  {
    if h == 0 {
      assert Column(x, 0) == {};
    } else {
      assert Column(x, h) == Column(x, h - 1) + {Pos(x, h - 1)};
      ColumnSize(x, h - 1);
    }
  }

  lemma {:induction false} RectSize(w: nat, h: nat)
    ensures |Rect(w, h)| == w * h
  {
    if w == 0 {
      assert Rect(0, h) == {};
    } else {
      RectSplit(w, h);
      RectSize(w - 1, h);
      ColumnSize(w - 1, h);
      MulStep(w, h);
    }
  }

  lemma MulStep(w: int, h: int)
    ensures (w - 1) * h + h == w * h
  {
  }

  lemma RectSplit(w: int, h: int)
    requires w >= 1
    ensures Rect(w, h) == Rect(w - 1, h) + Column(w - 1, h)
    ensures Rect(w - 1, h) !! Column(w - 1, h)
    ensures |Rect(w, h)| == |Rect(w - 1, h)| + |Column(w - 1, h)|
  {
  }

  /** An n-by-n level has n squared tiles. */
  lemma SquareSize(n: nat)
    ensures |Square(n)| == n * n
  {
    RectSize(n, n);
  }

  /** The corners of a level at least 2 wide are four distinct tiles, all on the level. */
  lemma CornersOfLevel(n: int)
    requires n >= 2
    ensures |Corners(n)| == 4
    ensures Corners(n) <= Square(n)
    ensures forall i :: 0 <= i < 4 ==> Corner(n, i) in Corners(n)
    ensures forall p :: p in Corners(n) ==> exists i :: 0 <= i < 4 && Corner(n, i) == p
  {
    CornersListed(n);
  }

  /** The player's tile lies on the level, and on a level at least 3 wide it is never a corner. */
  lemma OriginPlacement(n: int)
    requires n >= 1
    ensures Origin(n) in Square(n)
    ensures n >= 3 ==> Origin(n) !in Corners(n)
  {
    CornersListed(n);
  }

  /** A sequence without repeats has as many distinct elements as entries. */
  lemma {:induction false} DistinctSize(s: seq<Pos>)
    requires Distinct(s)
    ensures |Elems(s)| == |s|
  {
    if |s| > 0 {
      var t := s[1..];
      assert Distinct(t) by {
        forall i, j | 0 <= i < j < |t| ensures t[i] != t[j] {
          assert t[i] == s[i + 1] && t[j] == s[j + 1];
        }
      }
      DistinctSize(t);
      assert s == [s[0]] + t;
      assert Elems(s) == {s[0]} + Elems(t);
      assert s[0] !in t by {
        forall i | 0 <= i < |t| ensures t[i] != s[0] {
          assert t[i] == s[i + 1];
        }
      }
    }
  }
}

=== FILE: placement.dfy ===
/**
 The placement passes: SpawnExits, the two GenerateObjects passes (rocks,
 then food) and SpawnEnemies. Each places a number of objects, one
 rejection-sampling loop per object. Exits, rocks and food mark their tile
 occupied; enemies do not.
 */
module Placement {
  import opened Wrappers
  import opened Occupancy
  import opened Draws
  import opened Sampling

  /** The grid after a pass and the tiles it placed on, in placement order. */
  datatype Phase = Phase(grid: Grid, spots: seq<Pos>)

  /** A pass that ran out of candidates with `unplaced` objects still to place. */
  datatype Stall = Stall(category: Category, unplaced: nat)

  /** Whether placing marks the tile occupied (SpawnEnemies never does). */
  predicate Marks(c: Category)
  {
    c != Enemy
  }

  /** The effect on the grid of placing one object on a free tile. */
  function Land(c: Category, g: Grid, p: Pos): (r: Grid)
    requires p in g && !g[p]
    ensures r.Keys == g.Keys
    ensures forall q {:trigger r[q]} :: q in g && q != p ==> r[q] == g[q]
    ensures Marks(c) ==> r[p]
    ensures !Marks(c) ==> r == g
  {
    if Marks(c) then Occupy(g, p) else g
  }

  /** Placing an exit, a rock or food adds its tile to the occupied set. */
  lemma LandAdds(c: Category, g: Grid, p: Pos)
    requires Marks(c) && p in g && !g[p]
    ensures p !in Occupied(g)
    ensures Occupied(Land(c, g, p)) == Occupied(g) + {p}
    ensures |Occupied(Land(c, g, p))| == |Occupied(g)| + 1
  {
    OccupyAdds(g, p);
  }

  /**
   One pass: `count` rejection-sampling loops in a row, each taking the next
   candidates of the supply. Every object lands on a candidate that was
   acceptable in the grid the pass started from; enemies leave the grid as it
   was. A pass that runs out of candidates reports how many objects it still
   had to place.
   */
  function PlaceMany(c: Category, g: Grid, origin: Pos, dist: int, cs: seq<Pos>, count: nat): (r: Result<Phase, Stall>)
    ensures r.Success? ==> r.value.grid.Keys == g.Keys && |r.value.spots| == count
    ensures r.Success? ==> forall i :: 0 <= i < count ==> Acceptable(c, g, origin, dist, r.value.spots[i])
    ensures r.Success? && !Marks(c) ==> r.value.grid == g
    ensures r.Failure? ==> r.error.category == c && 0 < r.error.unplaced <= count
    decreases count
  {
    if count == 0 then Success(Phase(g, []))
    else
      match Sample(c, g, origin, dist, cs)
      case None => Failure(Stall(c, count))
      case Some((p, more)) =>
        var g2 := Land(c, g, p);
        match PlaceMany(c, g2, origin, dist, more, count - 1)
        case Failure(e) => Failure(e)
        case Success(ph) =>
          StepSpots(c, g, origin, dist, p, g2, ph.spots);
          Success(Phase(ph.grid, [p] + ph.spots))
  }

  /** The spots of a step are acceptable where the pass started. */
  lemma StepSpots(c: Category, g: Grid, origin: Pos, dist: int, p: Pos, g2: Grid, spots: seq<Pos>)
    requires Acceptable(c, g, origin, dist, p) && g2 == Land(c, g, p)
    requires forall i :: 0 <= i < |spots| ==> Acceptable(c, g2, origin, dist, spots[i])
    ensures var s := [p] + spots;
            forall i :: 0 <= i < |s| ==> Acceptable(c, g, origin, dist, s[i])
  {
    var s := [p] + spots;
    forall i | 0 <= i < |s|
      ensures Acceptable(c, g, origin, dist, s[i])
    {
      if i > 0 {
        assert s[i] == spots[i - 1];
      }
    }
  }

  /** A pass that succeeds took its first tile by one loop and the rest by the remaining pass. */
  lemma PlaceManyStep(c: Category, g: Grid, origin: Pos, dist: int, cs: seq<Pos>, count: nat)
    returns (p: Pos, more: seq<Pos>, g2: Grid, ph: Phase)
    requires count > 0 && PlaceMany(c, g, origin, dist, cs, count).Success?
    ensures Sample(c, g, origin, dist, cs) == Some((p, more))
    ensures Acceptable(c, g, origin, dist, p) && g2 == Land(c, g, p)
    ensures PlaceMany(c, g2, origin, dist, more, count - 1) == Success(ph)
    ensures PlaceMany(c, g, origin, dist, cs, count) == Success(Phase(ph.grid, [p] + ph.spots))
  {
    var o := Sample(c, g, origin, dist, cs);
    p := o.value.0;
    more := o.value.1;
    g2 := Land(c, g, p);
    ph := PlaceMany(c, g2, origin, dist, more, count - 1).value;
  }

  /** A supply that starts with an acceptable tile places it, then runs the rest of the pass. */
  lemma PlaceManyCons(c: Category, g: Grid, origin: Pos, dist: int, p: Pos, more: seq<Pos>, count: nat)
    requires count > 0 && Acceptable(c, g, origin, dist, p)
    requires PlaceMany(c, Land(c, g, p), origin, dist, more, count - 1).Success?
    ensures var tail := PlaceMany(c, Land(c, g, p), origin, dist, more, count - 1).value;
            PlaceMany(c, g, origin, dist, [p] + more, count) == Success(Phase(tail.grid, [p] + tail.spots))
  {
    SampleTakesFirst(c, g, origin, dist, p, more);
  }
}

=== FILE: placement_facts.dfy ===
/**
 What the placement passes guarantee: where objects land, what the occupied
 set becomes, when a pass can finish and when it must stall.
 */
module PlacementFacts {
  import opened Wrappers
  import opened Occupancy
  import opened Draws
  import opened Sampling
  import opened Placement

  /** Every tile a pass places on is one of the candidates it was offered. */
  lemma {:induction false} PlacementFromSupply(c: Category, g: Grid, origin: Pos, dist: int, cs: seq<Pos>, count: nat)
    ensures var r := PlaceMany(c, g, origin, dist, cs, count);
            r.Success? ==> forall i :: 0 <= i < count ==> r.value.spots[i] in cs
    decreases count, 2
  {
    if count > 0 && PlaceMany(c, g, origin, dist, cs, count).Success? {
      FromSupplyStep(c, g, origin, dist, cs, count);
    }
  }

  lemma FromSupplyStep(c: Category, g: Grid, origin: Pos, dist: int, cs: seq<Pos>, count: nat)
    requires count > 0 && PlaceMany(c, g, origin, dist, cs, count).Success?
    ensures var r := PlaceMany(c, g, origin, dist, cs, count);
            r.Success? ==> forall i :: 0 <= i < count ==> r.value.spots[i] in cs
    decreases count, 1
  {
    var p, more, g2, ph := PlaceManyStep(c, g, origin, dist, cs, count);
    SampleLeavesSuffix(c, g, origin, dist, cs);
    FromSupplyTail(c, g2, origin, dist, more, count - 1, ph, cs, p);
  }

  /** The rest of the pass draws from a suffix of the supply. */
  lemma FromSupplyTail(c: Category, g2: Grid, origin: Pos, dist: int, more: seq<Pos>, k: nat,
                                          ph: Phase, cs: seq<Pos>, p: Pos)
    requires PlaceMany(c, g2, origin, dist, more, k) == Success(ph)
    requires p in cs && |more| < |cs| && more == cs[|cs| - |more|..]
    ensures forall i :: 0 <= i < k + 1 ==> ([p] + ph.spots)[i] in cs
    decreases k, 3
  {
    PlacementFromSupply(c, g2, origin, dist, more, k);
    forall i | 0 <= i < k + 1
      ensures ([p] + ph.spots)[i] in cs
    {
      if i > 0 {
        assert ([p] + ph.spots)[i] == ph.spots[i - 1];
        assert ph.spots[i - 1] in more;
      }
    }
  }

  /**
   Exits, rocks and food grow the occupied set by exactly the tiles they land
   on, and by one tile per object.
   */
  lemma {:induction false} PlacementOccupies(c: Category, g: Grid, origin: Pos, dist: int, cs: seq<Pos>, count: nat)
    requires Marks(c)
    ensures var r := PlaceMany(c, g, origin, dist, cs, count);
            r.Success? ==> Occupied(r.value.grid) == Occupied(g) + Elems(r.value.spots) &&
                           |Occupied(r.value.grid)| == |Occupied(g)| + count
    decreases count, 2
  {
    if count > 0 && PlaceMany(c, g, origin, dist, cs, count).Success? {
      OccupiesStep(c, g, origin, dist, cs, count);
    } else if count == 0 {
      assert Elems([]) == {};
    }
  }

  lemma OccupiesStep(c: Category, g: Grid, origin: Pos, dist: int, cs: seq<Pos>, count: nat)
    requires Marks(c) && count > 0 && PlaceMany(c, g, origin, dist, cs, count).Success?
    ensures var r := PlaceMany(c, g, origin, dist, cs, count);
            r.Success? ==> Occupied(r.value.grid) == Occupied(g) + Elems(r.value.spots) &&
                           |Occupied(r.value.grid)| == |Occupied(g)| + count
    decreases count, 1
  {
    var p, more, g2, ph := PlaceManyStep(c, g, origin, dist, cs, count);
    OccupiesTail(c, g, origin, dist, p, g2, more, count - 1, ph);
  }

  /** One marked tile, then the rest of the pass. */
  lemma OccupiesTail(c: Category, g: Grid, origin: Pos, dist: int, p: Pos, g2: Grid,
                                        more: seq<Pos>, k: nat, ph: Phase)
    requires Marks(c) && p in g && !g[p] && g2 == Land(c, g, p)
    requires PlaceMany(c, g2, origin, dist, more, k) == Success(ph)
    ensures Occupied(ph.grid) == Occupied(g) + Elems([p] + ph.spots)
    ensures |Occupied(ph.grid)| == |Occupied(g)| + k + 1
    decreases k, 3
  {
    PlacementOccupies(c, g2, origin, dist, more, k);
    LandAdds(c, g, p);
    assert Elems([p] + ph.spots) == {p} + Elems(ph.spots);
  }

  /** Exits, rocks and food land on pairwise different tiles. */
  lemma PlacementDistinct(c: Category, g: Grid, origin: Pos, dist: int, cs: seq<Pos>, count: nat)
    requires Marks(c)
    ensures var r := PlaceMany(c, g, origin, dist, cs, count);
            r.Success? ==> Distinct(r.value.spots)
  {
    var r := PlaceMany(c, g, origin, dist, cs, count);
    if r.Success? {
      PlacementOccupies(c, g, origin, dist, cs, count);
      var s := r.value.spots;
      UnionSize(Occupied(g), Elems(s));
      DistinctIfFull(s);
    }
  }

  lemma UnionSize(a: set<Pos>, b: set<Pos>)
    ensures |a + b| <= |a| + |b|
  {
  }

  /** A sequence with as many different elements as positions repeats none. */
  lemma {:induction false} DistinctIfFull(s: seq<Pos>)
    requires |Elems(s)| >= |s|
    ensures Distinct(s)
    decreases |s|
  {
    if |s| > 0 {
      var t := s[1..];
      assert s == [s[0]] + t;
      assert Elems(s) == {s[0]} + Elems(t);
      ElemsSize(t);
      assert s[0] !in Elems(t);
      DistinctIfFull(t);
      forall i | 0 <= i < |t|
        ensures t[i] != s[0]
      {
        assert t[i] in Elems(t);
      }
      DistinctCons(s[0], t);
    }
  }

  lemma {:induction false} ElemsSize(s: seq<Pos>)
    ensures |Elems(s)| <= |s|
    decreases |s|
  {
    if |s| > 0 {
      var t := s[1..];
      assert s == [s[0]] + t;
      assert Elems(s) == {s[0]} + Elems(t);
      ElemsSize(t);
    }
  }

  lemma DistinctCons(p: Pos, s: seq<Pos>)
    requires Distinct(s) && forall i :: 0 <= i < |s| ==> s[i] != p
    ensures Distinct([p] + s)
  {
    var t := [p] + s;
    forall i, j | 0 <= i < j < |t|
      ensures t[i] != t[j]
    {
      assert t[j] == s[j - 1];
      if i > 0 {
        assert t[i] == s[i - 1];
      }
    }
  }

  /** Nothing but the placed tiles changes: every other tile keeps its flag. */
  lemma {:induction false} PlacementFrame(c: Category, g: Grid, origin: Pos, dist: int, cs: seq<Pos>, count: nat)
    ensures var r := PlaceMany(c, g, origin, dist, cs, count);
            r.Success? ==> forall q :: q in g && q !in Elems(r.value.spots) ==> r.value.grid[q] == g[q]
    decreases count, 2
  {
    if count > 0 && PlaceMany(c, g, origin, dist, cs, count).Success? {
      FrameStep(c, g, origin, dist, cs, count);
    }
  }

  lemma FrameStep(c: Category, g: Grid, origin: Pos, dist: int, cs: seq<Pos>, count: nat)
    requires count > 0 && PlaceMany(c, g, origin, dist, cs, count).Success?
    ensures var r := PlaceMany(c, g, origin, dist, cs, count);
            r.Success? ==> forall q :: q in g && q !in Elems(r.value.spots) ==> r.value.grid[q] == g[q]
    decreases count, 1
  {
    var p, more, g2, ph := PlaceManyStep(c, g, origin, dist, cs, count);
    FrameTail(c, g, origin, dist, p, g2, more, count - 1, ph);
  }

  lemma FrameTail(c: Category, g: Grid, origin: Pos, dist: int, p: Pos, g2: Grid,
                                     more: seq<Pos>, k: nat, ph: Phase)
    requires p in g && !g[p] && g2 == Land(c, g, p)
    requires PlaceMany(c, g2, origin, dist, more, k) == Success(ph)
    ensures forall q :: q in g && q !in Elems([p] + ph.spots) ==> ph.grid[q] == g[q]
    decreases k, 3
  {
    PlacementFrame(c, g2, origin, dist, more, k);
    assert Elems([p] + ph.spots) == {p} + Elems(ph.spots);
  }

  /**
   How many objects a pass of `count` loops places before its first loop
   finds nothing acceptable: the same loops as PlaceMany, counting instead of
   recording.
   */
  function PlacedBeforeStall(c: Category, g: Grid, origin: Pos, dist: int, cs: seq<Pos>, count: nat): (k: nat)
    ensures k <= count
    decreases count
  {
    if count == 0 then 0
    else
      match Sample(c, g, origin, dist, cs)
      case None => 0
      case Some((p, more)) => 1 + PlacedBeforeStall(c, Land(c, g, p), origin, dist, more, count - 1)
  }

  /**
   Asking for fewer objects changes nothing before the stall: a pass of j
   loops places j objects, or as many as the longer pass did if it stalled
   earlier.
   */
  lemma {:induction false} PlacedPrefix(c: Category, g: Grid, origin: Pos, dist: int, cs: seq<Pos>, j: nat, count: nat)
    requires j <= count
    ensures var all := PlacedBeforeStall(c, g, origin, dist, cs, count);
            PlacedBeforeStall(c, g, origin, dist, cs, j) == if all < j then all else j
    decreases j
  {
    if j > 0 {
      match Sample(c, g, origin, dist, cs)
      case None =>
      case Some((p, more)) =>
        PlacedPrefix(c, Land(c, g, p), origin, dist, more, j - 1, count - 1);
    }
  }

  /**
   Asking for fewer objects places the same first objects: when a pass of
   `count` loops finishes, a pass of j <= count loops on the same candidates
   finishes too, on the first j of its tiles.
   */
  lemma {:induction false} SpotsPrefix(c: Category, g: Grid, origin: Pos, dist: int, cs: seq<Pos>, j: nat, count: nat)
    requires j <= count
    ensures var long := PlaceMany(c, g, origin, dist, cs, count);
            var short := PlaceMany(c, g, origin, dist, cs, j);
            long.Success? ==> short.Success? && short.value.spots == long.value.spots[..j]
    decreases j, 2
  {
    if j > 0 && PlaceMany(c, g, origin, dist, cs, count).Success? {
      PrefixStep(c, g, origin, dist, cs, j, count);
    }
  }

  lemma PrefixStep(c: Category, g: Grid, origin: Pos, dist: int, cs: seq<Pos>, j: nat, count: nat)
    requires 0 < j <= count && PlaceMany(c, g, origin, dist, cs, count).Success?
    ensures var long := PlaceMany(c, g, origin, dist, cs, count);
            var short := PlaceMany(c, g, origin, dist, cs, j);
            short.Success? && short.value.spots == long.value.spots[..j]
    decreases j, 1
  {
    var p, more, g2, ph := PlaceManyStep(c, g, origin, dist, cs, count);
    PrefixTail(c, g, origin, dist, cs, p, more, g2, ph, j, count);
  }

  /** The first tile is shared; the rest follows from the shorter remainder. */
  lemma PrefixTail(c: Category, g: Grid, origin: Pos, dist: int, cs: seq<Pos>, p: Pos, more: seq<Pos>,
                   g2: Grid, ph: Phase, j: nat, count: nat)
    requires 0 < j <= count && Sample(c, g, origin, dist, cs) == Some((p, more)) && g2 == Land(c, g, p)
    requires PlaceMany(c, g2, origin, dist, more, count - 1) == Success(ph)
    ensures var short := PlaceMany(c, g, origin, dist, cs, j);
            short.Success? && short.value.spots == ([p] + ph.spots)[..j]
    decreases j, 0
  {
    SpotsPrefix(c, g2, origin, dist, more, j - 1, count - 1);
    RestPlaces(c, g, origin, dist, cs, p, more, j);
    ConsTake(p, ph.spots, j);
  }

  lemma ConsTake(p: Pos, s: seq<Pos>, j: nat)
    requires 0 < j <= |s| + 1
    ensures ([p] + s)[..j] == [p] + s[..j - 1]
  {
  }

  /** After a first loop lands on p, a pass whose rest finishes places p and then the rest's tiles. */
  lemma RestPlaces(c: Category, g: Grid, origin: Pos, dist: int, cs: seq<Pos>, p: Pos, more: seq<Pos>, count: nat)
    requires count > 0 && Sample(c, g, origin, dist, cs) == Some((p, more))
    requires PlaceMany(c, Land(c, g, p), origin, dist, more, count - 1).Success?
    ensures var rest := PlaceMany(c, Land(c, g, p), origin, dist, more, count - 1).value;
            PlaceMany(c, g, origin, dist, cs, count) == Success(Phase(rest.grid, [p] + rest.spots))
  {
  }

  /**
   A pass finishes exactly when it places every object before stalling; when
   it stalls, it reports the objects it did not place.
   */
  lemma {:induction false} PlaceManyCounts(c: Category, g: Grid, origin: Pos, dist: int, cs: seq<Pos>, count: nat)
    ensures var r := PlaceMany(c, g, origin, dist, cs, count);
            var k := PlacedBeforeStall(c, g, origin, dist, cs, count);
            (r.Success? <==> k == count) && (r.Failure? ==> r.error == Stall(c, count - k))
    decreases count, 2
  {
    if count > 0 {
      CountsStep(c, g, origin, dist, cs, count);
    }
  }

  lemma CountsStep(c: Category, g: Grid, origin: Pos, dist: int, cs: seq<Pos>, count: nat)
    requires count > 0
    ensures var r := PlaceMany(c, g, origin, dist, cs, count);
            var k := PlacedBeforeStall(c, g, origin, dist, cs, count);
            (r.Success? <==> k == count) && (r.Failure? ==> r.error == Stall(c, count - k))
    decreases count, 1
  {
    match Sample(c, g, origin, dist, cs)
    case None =>
    case Some((p, more)) =>
      CountsTail(c, g, origin, dist, cs, p, more, count);
  }

  lemma CountsTail(c: Category, g: Grid, origin: Pos, dist: int, cs: seq<Pos>, p: Pos, more: seq<Pos>, count: nat)
    requires count > 0 && Sample(c, g, origin, dist, cs) == Some((p, more))
    ensures var r := PlaceMany(c, g, origin, dist, cs, count);
            var k := PlacedBeforeStall(c, g, origin, dist, cs, count);
            (r.Success? <==> k == count) && (r.Failure? ==> r.error == Stall(c, count - k))
    decreases count, 0
  {
    var g2 := Land(c, g, p);
    var rest := PlaceMany(c, g2, origin, dist, more, count - 1);
    PlaceManyCounts(c, g2, origin, dist, more, count - 1);
    PlacedStep(c, g, origin, dist, cs, p, more, count);
    if rest.Success? {
      RestPlaces(c, g, origin, dist, cs, p, more, count);
    } else {
      RestStalls(c, g, origin, dist, cs, p, more, count);
    }
    CountsAgreeStep(c, PlaceMany(c, g, origin, dist, cs, count), rest,
                    PlacedBeforeStall(c, g, origin, dist, cs, count),
                    PlacedBeforeStall(c, g2, origin, dist, more, count - 1), count);
  }

  /** A first loop that lands counts one placement more than the rest of the pass. */
  lemma PlacedStep(c: Category, g: Grid, origin: Pos, dist: int, cs: seq<Pos>, p: Pos, more: seq<Pos>, count: nat)
    requires count > 0 && Sample(c, g, origin, dist, cs) == Some((p, more))
    ensures PlacedBeforeStall(c, g, origin, dist, cs, count) == 1 + PlacedBeforeStall(c, Land(c, g, p), origin, dist, more, count - 1)
  {
  }

  /** The counting step on outcomes alone: one more loop that lands keeps outcome and count in agreement. */
  lemma CountsAgreeStep(c: Category, r: Result<Phase, Stall>, rest: Result<Phase, Stall>, k: nat, k2: nat, count: nat)
    requires count > 0 && k == 1 + k2 && k2 <= count - 1
    requires (rest.Success? <==> k2 == count - 1) && (rest.Failure? ==> rest.error == Stall(c, count - 1 - k2))
    requires rest.Success? ==> r.Success?
    requires rest.Failure? ==> r == rest
    ensures (r.Success? <==> k == count) && (r.Failure? ==> r.error == Stall(c, count - k))
  {
  }

  /** After a first loop lands on p, a pass whose rest stalls stalls with the same report. */
  lemma RestStalls(c: Category, g: Grid, origin: Pos, dist: int, cs: seq<Pos>, p: Pos, more: seq<Pos>, count: nat)
    requires count > 0 && Sample(c, g, origin, dist, cs) == Some((p, more))
    requires PlaceMany(c, Land(c, g, p), origin, dist, more, count - 1).Failure?
    ensures PlaceMany(c, g, origin, dist, cs, count) == PlaceMany(c, Land(c, g, p), origin, dist, more, count - 1)
  {
  }

  /**
   A stalled pass reports how many objects it still had to place: the same
   pass asked for that many fewer objects finishes, and asked for one more
   than that it stalls on its first missing object.
   */
  lemma StallCountsUnplaced(c: Category, g: Grid, origin: Pos, dist: int, cs: seq<Pos>, count: nat)
    ensures var r := PlaceMany(c, g, origin, dist, cs, count);
            r.Failure? ==> PlaceMany(c, g, origin, dist, cs, count - r.error.unplaced).Success? &&
                           PlaceMany(c, g, origin, dist, cs, count - r.error.unplaced + 1) == Failure(Stall(c, 1))
  {
    var r := PlaceMany(c, g, origin, dist, cs, count);
    if r.Failure? {
      PlaceManyCounts(c, g, origin, dist, cs, count);
      var k := PlacedBeforeStall(c, g, origin, dist, cs, count);
      assert count - r.error.unplaced == k;
      PlacedPrefix(c, g, origin, dist, cs, k, count);
      PlacedPrefix(c, g, origin, dist, cs, k + 1, count);
      PlaceManyCounts(c, g, origin, dist, cs, k);
      PlaceManyCounts(c, g, origin, dist, cs, k + 1);
    }
  }

  /** The tiles a pass may still use: its pool less the occupied tiles. */
  function Room(c: Category, g: Grid, n: int): set<Pos>
  {
    Pool(c, n) - Occupied(g)
  }

  lemma PoolOnLevel(c: Category, n: int)
    requires n >= 1
    ensures Pool(c, n) <= Square(n)
  {
  }

  lemma SubsetSize(a: set<Pos>, b: set<Pos>)
    requires a <= b
    ensures |a| <= |b|
  {
    assert b == a + (b - a);
  }

  /**
   A marking pass needs one tile of its room per object: with fewer, it
   stalls for every supply of draws.
   */
  lemma PlacementNeedsRoom(c: Category, g: Grid, n: int, origin: Pos, dist: int, ds: seq<int>, count: nat)
    requires n >= 1 && Marks(c)
    requires count > |Room(c, g, n)|
    ensures PlaceMany(c, g, origin, dist, Candidates(c, n, ds), count).Failure?
  {
    var cs := Candidates(c, n, ds);
    var r := PlaceMany(c, g, origin, dist, cs, count);
    if r.Success? {
      PlacementFromSupply(c, g, origin, dist, cs, count);
      PlacementDistinct(c, g, origin, dist, cs, count);
      SpotsFitRoom(c, g, n, origin, dist, cs, r.value.spots);
      assert false;
    }
  }

  /** Pairwise different acceptable tiles drawn from a category's pool all lie in its room. */
  lemma SpotsFitRoom(c: Category, g: Grid, n: int, origin: Pos, dist: int, cs: seq<Pos>, s: seq<Pos>)
    requires forall i :: 0 <= i < |cs| ==> cs[i] in Pool(c, n)
    requires Distinct(s)
    requires forall i :: 0 <= i < |s| ==> s[i] in cs && Acceptable(c, g, origin, dist, s[i])
    ensures |s| <= |Room(c, g, n)|
  {
    assert Elems(s) <= Room(c, g, n) by {
      forall q | q in Elems(s)
        ensures q in Room(c, g, n)
      {
        var i :| 0 <= i < |s| && s[i] == q;
        assert s[i] in cs;
      }
    }
    DistinctSize(s);
    SubsetSize(Elems(s), Room(c, g, n));
  }

  /** The corner table has four entries, so there are at most four corners. */
  lemma CornersAtMostFour(n: int)
    ensures |Corners(n)| <= 4
  {
    CornersListed(n);
  }

  /**
   At most four exits fit, one per corner: a fifth makes the exit pass stall
   whatever the draws.
   */
  lemma ExitsBeyondCornersStall(g: Grid, n: int, origin: Pos, dist: int, ds: seq<int>, count: nat)
    requires n >= 1 && count > 4
    ensures PlaceMany(Exit, g, origin, dist, Candidates(Exit, n, ds), count).Failure?
  {
    CornersAtMostFour(n);
    SubsetSize(Room(Exit, g, n), Corners(n));
    PlacementNeedsRoom(Exit, g, n, origin, dist, ds, count);
  }

  /**
   A marking pass fed pairwise different free tiles places its objects on
   exactly those tiles, in order, each on its first proposal.
   */
  lemma {:induction false} PlacesFreeTilesInOrder(c: Category, g: Grid, origin: Pos, dist: int, cs: seq<Pos>)
    requires Marks(c) && Distinct(cs)
    requires forall i :: 0 <= i < |cs| ==> cs[i] in g && !g[cs[i]]
    ensures var r := PlaceMany(c, g, origin, dist, cs, |cs|);
            r.Success? && r.value.spots == cs
    decreases |cs|
  {
    if |cs| > 0 {
      var p, more := cs[0], cs[1..];
      var g2 := Land(c, g, p);
      StillFree(c, g, cs);
      PlacesFreeTilesInOrder(c, g2, origin, dist, more);
      PlaceManyCons(c, g, origin, dist, p, more, |cs|);
      assert [p] + more == cs;
    }
  }

  /** After the first of pairwise different free tiles is taken, the others are still free. */
  lemma StillFree(c: Category, g: Grid, cs: seq<Pos>)
    requires |cs| > 0 && Distinct(cs)
    requires forall i :: 0 <= i < |cs| ==> cs[i] in g && !g[cs[i]]
    ensures var g2 := Land(c, g, cs[0]);
            Distinct(cs[1..]) && forall i :: 0 <= i < |cs| - 1 ==> cs[1..][i] in g2 && !g2[cs[1..][i]]
  {
    var g2 := Land(c, g, cs[0]);
    forall i | 0 <= i < |cs| - 1
      ensures cs[1..][i] in g2 && !g2[cs[1..][i]]
    {
      assert cs[1..][i] == cs[i + 1] != cs[0];
    }
  }

  /** k pairwise different members of a set with at least k members. */
  lemma {:induction false} DistinctFrom(s: set<Pos>, k: nat) returns (t: seq<Pos>)
    requires k <= |s|
    ensures |t| == k && Distinct(t)
    ensures forall i :: 0 <= i < k ==> t[i] in s
    decreases k
  {
    if k == 0 {
      t := [];
    } else {
      var x :| x in s;
      var u := DistinctFrom(s - {x}, k - 1);
      t := [x] + u;
      forall i | 0 <= i < k
        ensures t[i] in s && (i > 0 ==> t[i] != x)
      {
        if i > 0 {
          assert t[i] == u[i - 1];
        }
      }
      DistinctCons(x, u);
    }
  }

  /**
   Candidates that fill a marking pass: one tile of the room per object,
   each taken on its first proposal.
   */
  lemma FillingCandidates(c: Category, g: Grid, n: int, origin: Pos, dist: int, count: nat)
    returns (cs: seq<Pos>)
    requires n >= 1 && g.Keys == Square(n) && Marks(c)
    requires count <= |Room(c, g, n)|
    ensures forall i :: 0 <= i < |cs| ==> cs[i] in Pool(c, n)
    ensures PlaceMany(c, g, origin, dist, cs, count).Success?
  {
    cs := DistinctFrom(Room(c, g, n), count);
    PoolOnLevel(c, n);
    PlacesFreeTilesInOrder(c, g, origin, dist, cs);
  }

  /**
   A marking pass can finish exactly when its room has a tile per object: then
   some supply of draws places them all, and otherwise none does.
   */
  lemma PlacementCanFinishIff(c: Category, g: Grid, n: int, origin: Pos, dist: int, count: nat)
    requires n >= 1 && g.Keys == Square(n) && Marks(c)
    ensures (exists ds :: PlaceMany(c, g, origin, dist, Candidates(c, n, ds), count).Success?)
            <==> count <= |Room(c, g, n)|
  {
    if count <= |Room(c, g, n)| {
      var cs := FillingCandidates(c, g, n, origin, dist, count);
      var ds := DrawsFor(c, n, cs);
      assert PlaceMany(c, g, origin, dist, Candidates(c, n, ds), count).Success?;
    } else {
      forall ds
        ensures PlaceMany(c, g, origin, dist, Candidates(c, n, ds), count).Failure?
      {
        PlacementNeedsRoom(c, g, n, origin, dist, ds, count);
      }
    }
  }

  /**
   SpawnEnemies never marks a tile, so one acceptable tile is enough for any
   number of enemies: there are draws that put them all on that same tile.
   */
  lemma {:induction false} EnemiesShareTile(g: Grid, origin: Pos, dist: int, p: Pos, count: nat)
    requires Acceptable(Enemy, g, origin, dist, p)
    ensures var r := PlaceMany(Enemy, g, origin, dist, seq(count, _ => p), count);
            r.Success? && r.value.spots == seq(count, _ => p) && r.value.grid == g
    decreases count
  {
    if count > 0 {
      var more := seq(count - 1, _ => p);
      assert seq(count, _ => p) == [p] + more;
      SampleTakesFirst(Enemy, g, origin, dist, p, more);
      EnemiesShareTile(g, origin, dist, p, count - 1);
    }
  }

  /** Lifted to draws: some draws stack every enemy on one acceptable tile. */
  lemma EnemiesMayShareTile(g: Grid, n: int, origin: Pos, dist: int, p: Pos, count: nat)
    requires n >= 1 && InBounds(p, n) && Acceptable(Enemy, g, origin, dist, p)
    ensures exists ds :: var r := PlaceMany(Enemy, g, origin, dist, Candidates(Enemy, n, ds), count);
                         r.Success? && r.value.spots == seq(count, _ => p)
  {
    var cs := seq(count, _ => p);
    EnemiesShareTile(g, origin, dist, p, count);
    var ds := DrawsFor(Enemy, n, cs);
    assert Candidates(Enemy, n, ds) == cs;
  }
}

=== FILE: sampling.dfy ===
/**
 The rejection-sampling loops of SpawnExits, GenerateObjects and SpawnEnemies:
 candidates are proposed one after another until one is acceptable. The
 source loops for as long as it takes; here the candidates come from a finite
 supply, and running out of it is reported instead of looping forever.
 */
module Sampling {
  import opened Wrappers
  import opened Occupancy
  import opened Draws

  /**
   Vector2.Distance(origin, p) < dist for whole-numbered points, without the
   square root: a distance is never negative, so nothing is too close when
   dist <= 0, and otherwise comparing squares is exact.
   */
  predicate TooClose(origin: Pos, p: Pos, dist: int): (near: bool)
    ensures dist <= 0 ==> !near
    ensures p == origin ==> (near <==> dist > 0)
    ensures near ==> -dist < p.x - origin.x < dist && -dist < p.y - origin.y < dist
    ensures p.y == origin.y ==> (near <==> -dist < p.x - origin.x < dist)
    ensures p.x == origin.x ==> (near <==> -dist < p.y - origin.y < dist)
  {
    var dx := p.x - origin.x;
    var dy := p.y - origin.y;
    SquareBelow(dx, dist);
    SquareBelow(dy, dist);
    dist > 0 && dx * dx + dy * dy < dist * dist
  }

  /**
   Against an independent reading of Vector2.Distance: for a whole-numbered
   bound, the Euclidean distance is below dist exactly when its whole part is,
   so the square-free test agrees with the floor of the true distance.
   */
  lemma TooCloseIsDistance(origin: Pos, p: Pos, dist: int)
    ensures TooClose(origin, p, dist) <==> FloorSqrt(SquaredDistance(origin, p)) < dist
  {
    var r := FloorSqrt(SquaredDistance(origin, p));
    if dist > 0 {
      if r < dist {
        ScaleLe(r + 1, dist, r + 1);
        ScaleLe(r + 1, dist, dist);
      } else {
        ScaleLe(dist, r, r);
        ScaleLe(dist, r, dist);
      }
    }
  }

  /** The whole part of the square root of s: the largest r with r² <= s. */
  function FloorSqrt(s: nat): (r: nat)
    ensures r * r <= s < (r + 1) * (r + 1)
  {
    if s == 0 then 0
    else
      var r := FloorSqrt(s - 1);
      if (r + 1) * (r + 1) <= s then
        assert (r + 2) * (r + 2) == (r + 1) * (r + 1) + 2 * r + 3;
        r + 1
      else r
  }

  /** dx² + dy², the square of the Euclidean distance between two tiles. */
  function SquaredDistance(a: Pos, b: Pos): nat
  {
    var dx, dy := b.x - a.x, b.y - a.y;
    SquareNonNegative(dx);
    SquareNonNegative(dy);
    dx * dx + dy * dy
  }

  lemma SquareNonNegative(a: int)
    ensures a * a >= 0
  {
    if a < 0 {
      ScaleLe(a, 0, -a);
    } else {
      ScaleLe(0, a, a);
    }
  }

  /** For a positive bound d, a² < d² exactly when a lies strictly between -d and d. */
  lemma SquareBelow(a: int, d: int)
    ensures d > 0 ==> (a * a < d * d <==> -d < a < d)
  {
    if d > 0 {
      var b := if a < 0 then -a else a;
      assert a * a == b * b;
      if b >= d {
        ScaleLe(d, b, b);
        ScaleLe(d, b, d);
      } else {
        ScaleLe(b, d, b);
        ScaleLt(b, d, d);
      }
    }
  }

  /** Scaling both sides of x <= y by a non-negative factor. */
  lemma ScaleLe(x: int, y: int, z: int)
    requires x <= y && 0 <= z
    ensures x * z <= y * z
  {
  }

  /** Scaling both sides of x < y by a positive factor. */
  lemma ScaleLt(x: int, y: int, z: int)
    requires x < y && 0 < z
    ensures x * z < y * z
  {
  }

  /**
   When a candidate ends its loop, the negation of the loop guards: its tile
   exists (so the grid lookup succeeds) and is free, and for an enemy it is
   also at least dist away from the player, measured by the whole part of the
   Euclidean distance.
   */
  predicate Acceptable(c: Category, g: Grid, origin: Pos, dist: int, p: Pos): (ok: bool)
    ensures ok <==> p in g.Keys - Occupied(g) && (c == Enemy ==> FloorSqrt(SquaredDistance(origin, p)) >= dist)
  {
    TooCloseIsDistance(origin, p, dist);
    p in g && !g[p] && (c == Enemy ==> !TooClose(origin, p, dist))
  }

  /** None of the first i candidates is acceptable. */
  predicate RejectedBefore(c: Category, g: Grid, origin: Pos, dist: int, cs: seq<Pos>, i: int)
    requires 0 <= i <= |cs|
  {
    forall j :: 0 <= j < i ==> !Acceptable(c, g, origin, dist, cs[j])
  }

  /** Some candidate of the supply is acceptable. */
  predicate SomeAcceptable(c: Category, g: Grid, origin: Pos, dist: int, cs: seq<Pos>)
  {
    exists i :: 0 <= i < |cs| && Acceptable(c, g, origin, dist, cs[i])
  }

  /**
   One rejection-sampling loop: the accepted tile and the candidates left
   after it, or None when the supply runs out first.
   */
  function Sample(c: Category, g: Grid, origin: Pos, dist: int, cs: seq<Pos>): (r: Option<(Pos, seq<Pos>)>)
    ensures r.Some? ==> Acceptable(c, g, origin, dist, r.value.0) && r.value.0 in cs
    ensures r.Some? ==> |r.value.1| < |cs|
    decreases |cs|
  {
    if |cs| == 0 then None
    else if Acceptable(c, g, origin, dist, cs[0]) then Some((cs[0], cs[1..]))
    else Sample(c, g, origin, dist, cs[1..])
  }

  /** The candidates a loop leaves over are the tail of the supply it was given. */
  lemma {:induction false} SampleLeavesSuffix(c: Category, g: Grid, origin: Pos, dist: int, cs: seq<Pos>)
    ensures var r := Sample(c, g, origin, dist, cs);
            r.Some? ==> r.value.1 == cs[|cs| - |r.value.1|..]
    decreases |cs|
  {
    if |cs| > 0 && !Acceptable(c, g, origin, dist, cs[0]) {
      SampleLeavesSuffix(c, g, origin, dist, cs[1..]);
      var r := Sample(c, g, origin, dist, cs[1..]);
      if r.Some? {
        assert cs[1..][|cs| - 1 - |r.value.1|..] == cs[|cs| - |r.value.1|..];
      }
    }
  }

  lemma SomeAcceptableCons(c: Category, g: Grid, origin: Pos, dist: int, cs: seq<Pos>)
    requires |cs| > 0
    ensures SomeAcceptable(c, g, origin, dist, cs) <==>
            Acceptable(c, g, origin, dist, cs[0]) || SomeAcceptable(c, g, origin, dist, cs[1..])
  {
    if SomeAcceptable(c, g, origin, dist, cs) && !Acceptable(c, g, origin, dist, cs[0]) {
      var i :| 0 <= i < |cs| && Acceptable(c, g, origin, dist, cs[i]);
      assert cs[1..][i - 1] == cs[i];
    }
    if SomeAcceptable(c, g, origin, dist, cs[1..]) {
      var i :| 0 <= i < |cs[1..]| && Acceptable(c, g, origin, dist, cs[1..][i]);
      assert cs[i + 1] == cs[1..][i];
    }
  }

  /** A loop ends within the supply exactly when the supply holds an acceptable candidate. */
  lemma {:induction false} SampleSucceedsIff(c: Category, g: Grid, origin: Pos, dist: int, cs: seq<Pos>)
    ensures Sample(c, g, origin, dist, cs).Some? <==> SomeAcceptable(c, g, origin, dist, cs)
    decreases |cs|
  {
    if |cs| > 0 {
      SomeAcceptableCons(c, g, origin, dist, cs);
      if !Acceptable(c, g, origin, dist, cs[0]) {
        SampleSucceedsIff(c, g, origin, dist, cs[1..]);
      }
    }
  }

  /**
   The loop takes the FIRST acceptable candidate: every earlier one was
   rejected, and sampling resumes right after it.
   */
  lemma {:induction false} SampleIsFirstAcceptable(c: Category, g: Grid, origin: Pos, dist: int, cs: seq<Pos>)
    ensures var r := Sample(c, g, origin, dist, cs);
            r.Some? ==> exists i :: 0 <= i < |cs| && cs[i] == r.value.0 && r.value.1 == cs[i + 1..]
                                    && RejectedBefore(c, g, origin, dist, cs, i)
    decreases |cs|, 1
  {
    if |cs| > 0 && Sample(c, g, origin, dist, cs).Some? {
      if Acceptable(c, g, origin, dist, cs[0]) {
        assert RejectedBefore(c, g, origin, dist, cs, 0);
      } else {
        FirstAcceptableLater(c, g, origin, dist, cs);
      }
    }
  }

  /** When the first candidate is rejected, the loop's answer is the rest of the supply's. */
  lemma FirstAcceptableLater(c: Category, g: Grid, origin: Pos, dist: int, cs: seq<Pos>)
    requires |cs| > 0 && !Acceptable(c, g, origin, dist, cs[0])
    requires Sample(c, g, origin, dist, cs).Some?
    ensures var r := Sample(c, g, origin, dist, cs);
            exists i :: 0 <= i < |cs| && cs[i] == r.value.0 && r.value.1 == cs[i + 1..]
                        && RejectedBefore(c, g, origin, dist, cs, i)
    decreases |cs|, 0
  {
    var t := cs[1..];
    var r := Sample(c, g, origin, dist, t);
    assert Sample(c, g, origin, dist, cs) == r;
    SampleIsFirstAcceptable(c, g, origin, dist, t);
    var i :| 0 <= i < |t| && t[i] == r.value.0 && r.value.1 == t[i + 1..] && RejectedBefore(c, g, origin, dist, t, i);
    RejectedShift(c, g, origin, dist, cs, i);
    assert cs[i + 1] == r.value.0;
    assert cs[i + 2..] == t[i + 1..];
  }

  /** Rejections in the rest of the supply, after a rejected first candidate, are rejections in the whole. */
  lemma RejectedShift(c: Category, g: Grid, origin: Pos, dist: int, cs: seq<Pos>, i: int)
    requires |cs| > 0 && !Acceptable(c, g, origin, dist, cs[0])
    requires 0 <= i < |cs| - 1 && RejectedBefore(c, g, origin, dist, cs[1..], i)
    ensures RejectedBefore(c, g, origin, dist, cs, i + 1)
  {
    forall j | 0 <= j < i + 1
      ensures !Acceptable(c, g, origin, dist, cs[j])
    {
      if j > 0 {
        assert cs[j] == cs[1..][j - 1];
      }
    }
  }

  /** A supply that starts with an acceptable tile yields that tile at once. */
  lemma SampleTakesFirst(c: Category, g: Grid, origin: Pos, dist: int, p: Pos, more: seq<Pos>)
    requires Acceptable(c, g, origin, dist, p)
    ensures Sample(c, g, origin, dist, [p] + more) == Some((p, more))
  {
    assert ([p] + more)[1..] == more;
  }
}

=== FILE: wrappers.dfy ===
/** Option and Result types shared by the generation phases. */
module Wrappers {

  /** A value that may be missing, such as a draw the supply has run out of. */
  datatype Option<+T> = None | Some(value: T)

  /** Either a value or the reason it could not be produced. */
  datatype Result<+R, +E> = Success(value: R) | Failure(error: E)
}
